=== FILE: README.md ===
# Task manager: request, query and list logic in Dafny

This project models the core of a small Next.js task manager. On the
server it covers:

- the owner-scoped task listing, with its optional status and priority
  filters and four sort orders;
- task creation, with the task schema's defaults, trimming and length
  bounds;
- the bearer-token gate;
- the response envelope and the substring-based classifier that turns a
  thrown error into an HTTP status;
- the signup, login and `/me` handlers.

In the browser it covers:

- the request helper that attaches the bearer header and unwraps the
  envelope;
- the task list's filter and sort pipeline;
- the task form;
- the task card's toggle and the style key of its priority badge;
- the sidebar's active-link rule;
- the analytics figures;
- the local list edits of the completed-tasks page and of the dashboard.

Everything is a pure function over immutable datatypes:

- A task is `TaskModel.Task`, with two enumerations (`Priority`, `Status`)
  and integer timestamps.
- The task collection is a `seq<Task>`, and the user collection is a
  `seq<User>` read first-match-first.
- The token signer is a pair of function values. Its one property
  (verification inverts signing) is the predicate `Auth.RoundTrips`, which
  the lemmas that need it take as a precondition.
- Password hashing is a pair of function values in the same way.
- A handler that throws returns `Threw(message)`, and the wrappers turn
  that into a status.
- The clock, the network, the session and the answers of the browser's
  task service are parameters.
- JavaScript's string operations (`trim`, `startsWith`, `includes`,
  `split(' ')`, `length` in UTF-16 code units) are written out in module
  `Text`.

Modules:

- `Common`: optional values, JavaScript truthiness, `filter`.
- `Text`: string operations.
- `TaskModel`: the task schema and the client's partial task.
- `Sorting`: a stable sort by an order's key.
- `Auth`, `ApiMiddleware`, `TasksRoute` and `AuthRoutes`: the server.
- `ApiClient`, `TaskList`, `TaskForm`, `TaskItem`, `Sidebar`,
  `FetchedTasks`, `Analytics`, `CompletedPage` and `Dashboard`: the
  browser.
- `EndToEnd`: properties that cross from one side to the other.

Behaviour worth knowing:

- An invalid or expired token answers 500. Its message contains none of
  the classifier's needles, "Authentication" included.
- The task routes use the classifier without the "validation" rule. A
  schema validation failure on create is classified by its message,
  which is usually 500. A rejected enumeration value is repeated in the
  message and can match a rule: a priority of "already exists" answers
  409.
- Tokens are signed without an expiry.
- Error messages reach the client word for word.

## Model

| member | source | states |
|---|---|---|
| Common.OrElse | src/lib/utils/api.ts:42 | `s \|\| fallback` on an optional string: the value when present and non-empty, the fallback otherwise |
| Common.Filter | src/components/tasks/TaskList.tsx:50 | `filter` keeps exactly the elements that pass, never more than it got, and keeps everything when all pass and nothing when none do |
| Common.FilterAppend | src/app/dashboard/page.tsx:157 | filtering distributes over concatenation, so kept elements keep their relative order |
| Common.FilterMultiset | src/components/tasks/TaskList.tsx:49-56 | a filtered list holds every passing element with its original multiplicity and nothing else |
| Text.LeadingSpaces | src/models/Task.ts:21 | the count of leading whitespace: all counted characters are spaces and the next one is not |
| Text.TrailingSpaces | src/models/Task.ts:21 | the count of trailing whitespace, characterised the same way from the end |
| Text.Trim | src/models/Task.ts:21 | `trim()` gives a slice of the input that neither starts nor ends with a space, surrounded only by spaces, and is empty exactly when the input is all spaces |
| Text.TrimIdempotent | src/models/Task.ts:21 | trimming twice is trimming once |
| Text.Contains | src/lib/middlewares/api-middleware.ts:53-56 | `includes` holds exactly when the needle starts at some position of the message |
| Text.Split | src/lib/utils/auth.ts:49 | `split(' ')` gives at least one field, no field contains the separator, and joining the fields gives back the input |
| Text.SplitJoin | src/lib/utils/auth.ts:49 | splitting inverts joining for separator-free fields |
| Text.SplitWord | src/lib/utils/auth.ts:49 | a separator-free word splits into itself |
| Text.SplitAfterWord | src/lib/utils/auth.ts:49 | a word and a separator split off as the first field |
| Text.SplitFirst | src/lib/utils/auth.ts:49 | the first field is the longest separator-free prefix |
| Text.Utf16Length | src/app/api/auth/signup/route.ts:26 | `length` counts UTF-16 code units: one for a Basic Multilingual Plane character and two for any other, so between one and two per character |
| Text.Utf16Append | src/app/api/auth/signup/route.ts:26 | the code-unit length of a concatenation is the sum of the parts' lengths |
| Text.Decimal | src/app/dashboard/page.tsx:99 | the decimal form of a number is a non-empty digit string without a leading zero |
| Text.DecimalRoundTrip | src/app/dashboard/page.tsx:99 | reading the decimal form back gives the number |
| Text.DecimalInjective | src/app/dashboard/page.tsx:99 | different numbers have different decimal forms |
| TaskModel.ParsePriority | src/models/Task.ts:29-34 | a priority is accepted exactly when it is "low", "medium" or "high", and it names the accepted value |
| TaskModel.ParseStatus | src/models/Task.ts:37-42 | a status is accepted exactly when it is "pending" or "completed" |
| TaskModel.PriorityNameRoundTrip | src/models/Task.ts:32 | every priority's stored name parses back to it |
| TaskModel.StatusNameRoundTrip | src/models/Task.ts:40 | every status's stored name parses back to it |
| TaskModel.Rank | src/app/api/tasks/route.ts:54 | the rank of a priority is one of 0, 1, 2 |
| TaskModel.RankIsSeverityOrder | src/app/api/tasks/route.ts:54 | the rank separates all priorities and orders high before medium before low |
| TaskModel.TitleErrors | src/models/Task.ts:18-23 | a title passes exactly when it is present, not blank after trimming, and at most 100 code units once trimmed |
| TaskModel.DescriptionErrors | src/models/Task.ts:24-28 | a description passes exactly when it is absent or at most 1000 code units once trimmed |
| TaskModel.PriorityErrors | src/models/Task.ts:29-36 | a priority passes exactly when it is absent or in the enumeration |
| TaskModel.StatusErrors | src/models/Task.ts:37-44 | a status passes exactly when it is absent or in the enumeration |
| TaskModel.OwnerErrors | src/models/Task.ts:45-49 | the owner reference is required |
| TaskModel.ValidateDraft | src/models/Task.ts:16-54 | a document is stored exactly when no field constraint fails; the stored task is well formed, with trimmed title and description, the defaults medium and pending, and both timestamps set to the creation time; otherwise the error lists the failures |
| TaskModel.NoSchemaErrors | src/models/Task.ts:16-54 | a draft has no schema errors exactly when each field's own check passes |
| TaskModel.StoredFieldsWellFormed | src/models/Task.ts:18-28 | trimmed fields that passed their checks satisfy the stored-task bounds |
| TaskModel.RevalidateWellFormed | src/models/Task.ts:16-54 | storing the fields of a well-formed task again gives the same task back |
| TaskModel.ApplyPatchLaws | src/app/dashboard/page.tsx:134 | spreading an empty partial task changes nothing, and spreading the same one twice is spreading it once |
| Sorting.Insert | src/app/api/tasks/route.ts:56-61 | inserting adds exactly one element and keeps a sorted list sorted |
| Sorting.SortBy | src/app/api/tasks/route.ts:56-61 | the sort is a permutation of its input, ordered by the order's key, and stable: tasks with equal keys keep their input order |
| Sorting.SortSorted | src/components/tasks/TaskList.tsx:59-80 | sorting a list already in order changes nothing |
| Sorting.Reverse | src/app/api/tasks/route.ts:60 | reversal maps position i to position n-1-i and keeps the elements |
| Sorting.PermutedRanks | src/app/api/tasks/route.ts:56-61 | permuted task lists have permuted rank lists |
| Sorting.OrderedPermutationsEqual | src/app/api/tasks/route.ts:56-61 | two non-decreasing permutations of each other are equal |
| Sorting.PriorityOrdersAreReverses | src/app/api/tasks/route.ts:60 | the rank sequences of the two priority sorts of the same tasks are reverses of each other |
| Auth.Configure | src/lib/utils/auth.ts:5-12 | loading fails with the missing-secret message exactly when `JWT_SECRET` is unset or empty |
| Auth.VerifyToken | src/lib/utils/auth.ts:33-39 | verification fails with "Invalid or expired token" exactly when the signer rejects the token, and otherwise gives the signer's claims |
| Auth.TokenRoundTrip | src/lib/utils/auth.ts:21-30 | a token issued for a user verifies to exactly that user's id, name and email |
| Auth.TokenFromHeader | src/lib/utils/auth.ts:42-50 | a token is extracted exactly when the header starts with the case-sensitive "Bearer "; it is the space-free run after the prefix, ending at the end or at a space |
| Auth.FirstFieldIsToken | src/lib/utils/auth.ts:45-49 | behind the prefix, the token is the first field of the rest split on single spaces |
| Auth.BearerRoundTrip | src/lib/utils/auth.ts:45-49 | a space-free token behind "Bearer " is extracted unchanged |
| Auth.BareBearer | src/lib/utils/auth.ts:49 | "Bearer " alone yields the empty token |
| Auth.DoubleSpaceBearer | src/lib/utils/auth.ts:49 | "Bearer  x" with two spaces yields the empty token |
| Auth.TrailingFieldBearer | src/lib/utils/auth.ts:49 | "Bearer a b" yields "a" |
| Auth.LowerCaseBearer | src/lib/utils/auth.ts:45 | "bearer x" yields no token |
| Auth.Authenticate | src/lib/utils/auth.ts:53-66 | a missing or empty token fails with "Authentication required", a rejected one with "Invalid or expired token", and otherwise the claims are the signer's |
| ApiMiddleware.SuccessResponse | src/lib/middlewares/api-middleware.ts:11-19 | a success envelope carries the data, with status 200 unless one is given |
| ApiMiddleware.ErrorResponse | src/lib/middlewares/api-middleware.ts:22-32 | an error envelope carries the error's message or the string itself, with status 400 unless one is given |
| ApiMiddleware.ClassifyLastMatch | src/lib/middlewares/api-middleware.ts:52-56 | the status is that of the last rule whose needle the message contains |
| ApiMiddleware.ClassifyNoMatch | src/lib/middlewares/api-middleware.ts:52 | with no rule matching, the default stands |
| ApiMiddleware.ClassifyAppend | src/lib/middlewares/api-middleware.ts:72-77 | classifying by two rule lists in turn is classifying by their concatenation |
| ApiMiddleware.MethodStatus | src/lib/middlewares/api-middleware.ts:52-56 | 409 if the message has "already exists"; else 404 for "not found"; else 403 for "Permission"; else 401 for "Authentication"; else 500 |
| ApiMiddleware.AsyncStatus | src/lib/middlewares/api-middleware.ts:72-77 | "validation" overrides everything with 400; otherwise both wrappers agree |
| ApiMiddleware.MethodHandler | src/lib/middlewares/api-middleware.ts:35-61 | an unregistered method answers 405 "Method M not allowed"; a handler's response passes through; a thrown message is classified |
| ApiMiddleware.AsyncHandler | src/lib/middlewares/api-middleware.ts:64-82 | a handler's response passes through; a thrown message is classified with the extra validation rule |
| ApiMiddleware.NoMethodRuleMatches | src/lib/middlewares/api-middleware.ts:52-56 | a message with none of the letters A, P, f and y, so that no rule's needle can occur in it, classifies as 500 |
| ApiMiddleware.NoRuleMatches | src/lib/middlewares/api-middleware.ts:72-77 | such a message that also never has an "a" followed by a "t" classifies as 500 under both wrappers |
| ApiMiddleware.InvalidTokenIsServerError | src/lib/middlewares/api-middleware.ts:53-56 | "Invalid or expired token" classifies as 500 under both wrappers |
| ApiMiddleware.MissingTitleIsServerError | src/lib/middlewares/api-middleware.ts:53-56 | "Title is required" classifies as 500 |
| ApiMiddleware.RequiredIsUnauthorized | src/lib/middlewares/api-middleware.ts:53 | "Authentication required" classifies as 401 under both wrappers |
| ApiMiddleware.OnlyAuthenticationMatches | src/lib/middlewares/api-middleware.ts:53-77 | a message that starts with "Authentication" and has none of the letters P, f, y and v is 401 under both wrappers |
| ApiMiddleware.UserNotFoundIsNotFound | src/lib/middlewares/api-middleware.ts:75 | "User not found" classifies as 404 |
| ApiMiddleware.NotFoundMatches | src/lib/middlewares/api-middleware.ts:55 | a message ending in "not found" with neither a y nor a v is 404 under both wrappers |
| ApiMiddleware.LaterRuleWins | src/lib/middlewares/api-middleware.ts:53-77 | a message with both "Authentication" and "not found" but not "already exists" gives 404; under the async wrapper it gives 400 exactly when it also contains "validation" |
| TasksRoute.Constraint | src/app/api/tasks/route.ts:26-32 | a filter value constrains exactly when it is present, non-empty and not "all", and then it is matched exactly |
| TasksRoute.BuildQuery | src/app/api/tasks/route.ts:24-32 | the query always names the caller as owner, plus the constraints |
| TasksRoute.ResolveOrder | src/app/api/tasks/route.ts:21-47 | each named order is chosen exactly by its name; anything else, missing included, is newest first |
| TasksRoute.Matching | src/app/api/tasks/route.ts:50 | the fetched tasks are exactly the stored ones the query matches, all owned by the caller |
| TasksRoute.ListTasks | src/app/api/tasks/route.ts:11-65 | every listed task belongs to the caller; a task is listed exactly when it is stored and matches; the listing is a permutation of the matches, sorted by the resolved order |
| TasksRoute.GetTasks | src/app/api/tasks/route.ts:11-65 | authentication runs first and its failure passes through; otherwise the answer is the caller's listing |
| TasksRoute.DraftFor | src/app/api/tasks/route.ts:84-90 | the draft defaults the description to "", the priority to "medium" and the status to "pending", and names the caller as owner |
| TasksRoute.CreateTask | src/app/api/tasks/route.ts:68-93 | authentication runs before the body is read; a falsy title throws "Title is required"; past those checks, a draft the schema rejects throws its validation message and stores nothing, and a draft it accepts is stored at the end and answered with 201 and the stored task |
| TasksRoute.CreatedTaskFields | src/app/api/tasks/route.ts:84-92 | a created task is well formed and owned by the caller, with a trimmed title, defaults for missing fields and both timestamps at creation |
| TasksRoute.GetRoute | src/app/api/tasks/route.ts:96 | a non-GET answers 405; a missing token 401; a rejected token 500; otherwise the listing with 200 |
| TasksRoute.PostRoute | src/app/api/tasks/route.ts:67-97 | a non-POST answers 405; a missing token 401; a rejected token or a missing title 500, because the classifier has no rule for them; a created task 201 with the task; any other thrown message is answered with the status the classifier gives it |
| TasksRoute.EchoedPriorityIsClassified | src/models/Task.ts:33 | a create with the priority "already exists" is rejected by the schema with a message that repeats the value, so the route answers 409 rather than 500 |
| TasksRoute.AllIsNoFilter | src/app/api/tasks/route.ts:26-32 | "all" and "" as a filter value list the same as no value |
| TasksRoute.UnknownSortIsNewestFirst | src/app/api/tasks/route.ts:21-47 | an unrecognised `sortBy` lists the same as none |
| TasksRoute.PriorityListingsReverse | src/app/api/tasks/route.ts:53-61 | the two priority listings hold the same tasks, and their rank sequences are reverses of each other |
| TasksRoute.PriorityListingIsStable | src/app/api/tasks/route.ts:56-61 | tasks of equal priority keep the order the store returned them in |
| TasksRoute.CreatedTaskIsListed | src/app/api/tasks/route.ts:68-93 | a created task appears in its creator's unfiltered listing and in no one else's |
| TasksRoute.AppendedTaskIsListed | src/app/api/tasks/route.ts:24 | a stored task is listed for its owner and for no other user |
| AuthRoutes.FindUser | src/app/api/auth/login/route.ts:23 | a lookup, by email for signup and login or by id for `/me`, finds nothing exactly when no user satisfies the filter, and otherwise a user that does |
| AuthRoutes.FoundAppended | src/app/api/auth/signup/route.ts:37-41 | once a user is added whose email or id no earlier user has, looking that email or id up finds the new user |
| AuthRoutes.SignupRejection | src/app/api/auth/signup/route.ts:18-34 | the checks run in order: missing fields, mismatch, length below 8, then a duplicate email, answered 409 "Email already in use" |
| AuthRoutes.Signup | src/app/api/auth/signup/route.ts:11-58 | a rejected signup changes nothing; otherwise exactly one user is added, with the hashed password, and the answer is 201 with the public user and a token |
| AuthRoutes.SignupRoute | src/app/api/auth/signup/route.ts:11 | the wrapper passes the handler's answer through |
| AuthRoutes.DuplicateEmailRefused | src/app/api/auth/signup/route.ts:31-34 | a valid signup with an email in use answers 409 "Email already in use" and leaves the users unchanged |
| AuthRoutes.MismatchBeforeLength | src/app/api/auth/signup/route.ts:22-28 | a short password that does not match its confirmation reports the mismatch |
| AuthRoutes.SignupKeepsEmailsUnique | src/app/api/auth/signup/route.ts:31-41 | signup preserves email uniqueness |
| AuthRoutes.Login | src/app/api/auth/login/route.ts:11-48 | missing fields answer 400; an unknown email or a wrong password answer 401 "Invalid credentials"; otherwise 200 with the public user and a token |
| AuthRoutes.LoginRoute | src/app/api/auth/login/route.ts:11 | the wrapper passes the handler's answer through |
| AuthRoutes.LoginFailuresUniform | src/app/api/auth/login/route.ts:26-34 | a wrong password gives the same answer as an unknown email |
| AuthRoutes.SignupThenLogin | src/app/api/auth/login/route.ts:23-47 | with a sound hasher, logging in with the credentials just signed up with succeeds for that user |
| AuthRoutes.Me | src/app/api/auth/me/route.ts:10-31 | authentication failure passes through; the lookup uses the token's user id; a missing user throws "User not found"; otherwise only id, name and email are returned |
| AuthRoutes.MeRoute | src/app/api/auth/me/route.ts:10-31 | a missing token answers 401, a rejected token 500, a missing user 404, otherwise 200 with the public user |
| AuthRoutes.SignupThenMe | src/app/api/auth/me/route.ts:14-30 | with a fresh user id, the token a signup returns, sent back as a bearer token, makes `/me` answer 200 with the new public user |
| ApiClient.BuildRequest | src/lib/utils/api.ts:14-34 | the URL is "/api" plus the endpoint; the bearer header is set exactly when a non-empty token is stored; a body is attached exactly for present data with POST, PUT or PATCH |
| ApiClient.Unwrap | src/lib/utils/api.ts:36-57 | an ok answer gives its data; a failed one its error or "Something went wrong"; a thrown error its message or "An unknown error occurred" |
| ApiClient.ShorthandBodies | src/lib/utils/api.ts:63-72 | `get` and `delete` never send a body; `post`, `put` and `patch` send their payload |
| TaskList.Kept | src/components/tasks/TaskList.tsx:46-56 | the kept tasks are exactly those that pass both filters, with their multiplicities |
| TaskList.VisibleTasks | src/components/tasks/TaskList.tsx:45-83 | the list shows exactly the tasks passing both filters, as a permutation of them, sorted by the chosen order and stable among equal keys |
| TaskList.VisibleOrder | src/components/tasks/TaskList.tsx:59-80 | newest first gives non-increasing creation times, oldest first non-decreasing, and the priority orders ascending or descending rank |
| TaskList.InitialShowsEverything | src/components/tasks/TaskList.tsx:38-42 | the initial selects show every task, newest first |
| TaskList.VisibleTasksIdempotent | src/components/tasks/TaskList.tsx:45-83 | applying the view to what it shows changes nothing |
| TaskList.StatusChangePatch | src/components/tasks/TaskList.tsx:95-97 | the status change sends a patch that sets only the status |
| TaskList.StatusChangeOnlyStatus | src/components/tasks/TaskList.tsx:95-97 | applying that patch changes the status and nothing else |
| TaskForm.Fields | src/components/tasks/TaskForm.tsx:23-32 | each input takes the initial value when present and non-empty, else "", "", medium, pending |
| TaskForm.InitialForm | src/components/tasks/TaskForm.tsx:23-32 | with no initial data the form starts empty, medium, pending |
| TaskForm.Reset | src/components/tasks/TaskForm.tsx:47-54 | new initial data resets the inputs with the same defaults and keeps the error; no data changes nothing |
| TaskForm.Validate | src/components/tasks/TaskForm.tsx:56-65 | validation passes exactly when the title has a non-space character, and sets or clears "Title is required" accordingly |
| TaskForm.Submit | src/components/tasks/TaskForm.tsx:67-80 | a submission happens exactly when validation passes and carries the inputs as they are, the title untrimmed and `user` empty |
| TaskForm.SubmitLabel | src/components/tasks/TaskForm.tsx:138 | the button reads "Update Task" exactly when the initial data has a non-empty id, else "Create Task" |
| TaskForm.AsPatch | src/components/tasks/TaskList.tsx:273-276 | a submission is spread as a patch that sets every field, the owner included |
| TaskForm.EditUnchangedRoundTrip | src/components/tasks/TaskForm.tsx:23-80 | opening the form on a task and submitting it unchanged sends back the task's own values |
| TaskForm.EditUnchangedPatch | src/components/tasks/TaskList.tsx:273-276 | spreading that unchanged submission over the client task, which has no `_id` field, changes only its owner, which becomes empty |
| TaskForm.BlankTitleRefused | src/components/tasks/TaskForm.tsx:56-80 | a blank title submits nothing and shows the error, and a later reset keeps the error |
| TaskItem.Toggle | src/components/tasks/TaskItem.tsx:20-23 | the toggle always gives the other status |
| TaskItem.ToggleInvolution | src/components/tasks/TaskItem.tsx:21 | toggling twice is the identity |
| TaskItem.StatusChangeRequest | src/components/tasks/TaskItem.tsx:20-23 | the card asks for completed exactly when its task is pending, for its own id |
| TaskItem.StatusView | src/components/tasks/TaskItem.tsx:49-91 | the checkbox is ticked, the title carries the completed style and the caption reads "Completed" exactly for a completed task; a pending one reads "Mark as completed" |
| TaskItem.ToggleFlipsView | src/components/tasks/TaskItem.tsx:20-23 | the status a click asks for flips the tick, the title style and the caption |
| TaskItem.Capitalize | src/components/tasks/TaskItem.tsx:43 | capitalising upper-cases the first character and keeps the rest |
| TaskItem.PriorityClass | src/components/tasks/TaskItem.tsx:42-44 | the style key is "priority" followed by the capitalised priority name |
| TaskItem.PriorityClasses | src/components/tasks/TaskItem.tsx:42-44 | the style keys are "priorityLow", "priorityMedium" and "priorityHigh", one per priority |
| TaskItem.PriorityColor | src/components/tasks/TaskItem.tsx:33-37 | the badge colour is the CSS variable named after the priority |
| TaskItem.DescriptionView | src/components/tasks/TaskItem.tsx:72-76 | the placeholder shows exactly for an empty description; any other is shown as it is |
| Sidebar.IsActive | src/components/layout/Sidebar.tsx:108-110 | an active link's href is a prefix of the path; a link is active on its own page; the dashboard only there; every other link on any path it prefixes |
| Sidebar.ActiveHrefs | src/components/layout/Sidebar.tsx:13-110 | the highlighted links are exactly the listed hrefs that are active |
| Sidebar.NoPathNoHighlight | src/components/layout/Sidebar.tsx:109-110 | with no path nothing is highlighted |
| Sidebar.OwnPageHighlighted | src/components/layout/Sidebar.tsx:109 | each link is highlighted on its own page |
| Sidebar.DashboardExactOnly | src/components/layout/Sidebar.tsx:110 | a path below "/dashboard" does not highlight the dashboard |
| Sidebar.CompletedPageHighlightsBoth | src/components/layout/Sidebar.tsx:108-110 | "/tasks/completed" highlights both "My Tasks" and "Completed", and neither of the others |
| Sidebar.PrefixIsNotSegment | src/components/layout/Sidebar.tsx:110 | any path that merely begins with "/tasks" highlights "My Tasks" |
| FetchedTasks.NormalizeId | src/app/analytics/page.tsx:57 | the id is `id` when non-empty, else the string form of `_id`, else "" |
| FetchedTasks.FormatTask | src/app/analytics/page.tsx:53-58 | formatting keeps every field, normalises the id, and puts the clock in place of a missing date |
| FetchedTasks.FormatTasks | src/app/tasks/completed/page.tsx:42-49 | the array is formatted element by element, in order |
| FetchedTasks.FormatInvertsWire | src/app/analytics/page.tsx:53-58 | formatting the server's serialisation of stored tasks gives those tasks back |
| FetchedTasks.Load | src/app/analytics/page.tsx:51-64 | a success with data loads the formatted tasks; otherwise the answer's error or the page's fallback message is shown |
| Analytics.FilterCount | src/app/analytics/page.tsx:76-78 | the length of a filtered list is the count of passing tasks |
| Analytics.StatusCountsAddUp | src/app/analytics/page.tsx:76-79 | pending and completed counts add up to the number of tasks |
| Analytics.Tally | src/app/analytics/page.tsx:90-92 | the `forEach` adds one to the buckets per task |
| Analytics.TallyCounts | src/app/analytics/page.tsx:84-92 | each bucket counts the tasks of its priority |
| Analytics.Percentage | src/app/analytics/page.tsx:80-81 | the rate is within 0 and 100, zero exactly when nothing is completed, and 100 exactly when everything is |
| Analytics.Calculate | src/app/analytics/page.tsx:74-101 | the total is the task count; completed and pending count their statuses and add up to the total; the buckets count their priorities and add up to the total; the rate is 0 when there are no tasks |
| Analytics.NoTasksNoFigures | src/app/analytics/page.tsx:18-28 | with no tasks every figure is the initial zero |
| Analytics.Recent | src/app/analytics/page.tsx:342 | recent activity is the first min(5, n) tasks, in order |
| Analytics.RecentIsPrefix | src/app/analytics/page.tsx:342 | the recent tasks are a prefix, and taking them twice takes them once |
| CompletedPage.RemoveId | src/app/tasks/completed/page.tsx:77-79 | exactly the tasks without the id remain, and an absent id changes nothing |
| CompletedPage.Find | src/app/tasks/completed/page.tsx:85 | nothing is found exactly when no task has the id; otherwise a task with it is |
| CompletedPage.Merged | src/app/tasks/completed/page.tsx:105-119 | the merged task keeps its id and creation time, is completed, and carries the new stamp |
| CompletedPage.MergeId | src/app/tasks/completed/page.tsx:105-118 | the length and the ids are kept, only tasks with the id change, and those get the merge |
| CompletedPage.EditBody | src/app/tasks/completed/page.tsx:93-101 | the update takes the patch's title unless empty, its description whenever present, its priority when present, and always "completed" |
| CompletedPage.HandleUpdate | src/app/tasks/completed/page.tsx:64-131 | a reopen sends only the status and removes the task on success; an unknown id shows "Task not found" and sends nothing; otherwise the full update is sent and, on a success with data, merged with the stored timestamp or the clock; failures keep the tasks and show the error |
| CompletedPage.StampOrNow | src/app/tasks/completed/page.tsx:112-115 | the stored `updatedAt` when the answer carries one, else the clock |
| CompletedPage.HandleDelete | src/app/tasks/completed/page.tsx:133-152 | a delete is always sent; success removes the task; failure keeps the tasks and shows the error |
| CompletedPage.HandlersKeepAllCompleted | src/app/tasks/completed/page.tsx:72-119 | if every task on the page is completed, that stays true after any update or delete |
| CompletedPage.RemovalIsExact | src/app/tasks/completed/page.tsx:72-79 | a successful reopen or delete removes exactly the tasks with that id |
| CompletedPage.ReopenDropsOtherEdits | src/app/tasks/completed/page.tsx:72-73 | setting the status to pending sends only the status, so the dialog's other changes are not sent |
| CompletedPage.AcceptedEditStored | src/app/tasks/completed/page.tsx:105-119 | an accepted edit keeps the list's length and stores the merged, completed task with the server's timestamp |
| CompletedPage.RemovalKeepsOrder | src/app/tasks/completed/page.tsx:141 | removal keeps the relative order of the remaining tasks |
| Dashboard.NewId | src/app/dashboard/page.tsx:99 | a new id is "task-" followed by the clock's decimal form |
| Dashboard.NewIdInjective | src/app/dashboard/page.tsx:99 | tasks created at different instants get different ids |
| Dashboard.Create | src/app/dashboard/page.tsx:98-109 | one entry is appended and earlier ones are unchanged; it has the session's user id or "1", the submitted fields, and both dates at the clock |
| Dashboard.Update | src/app/dashboard/page.tsx:131-137 | the length, user ids and task ids are kept; only entries with the id change, getting the patch and the clock as `updatedAt` |
| Dashboard.Delete | src/app/dashboard/page.tsx:157 | exactly the entries without the id remain, and an absent id changes nothing |
| Dashboard.CreateThenDelete | src/app/dashboard/page.tsx:98-157 | deleting the task just created restores the list when its id was new |
| Dashboard.AbsentIdUnchanged | src/app/dashboard/page.tsx:131-157 | updating or deleting an id no task has changes nothing |
| Dashboard.FormEditClearsOwner | src/app/dashboard/page.tsx:134 | an edit submitted by the form clears the task's `user` and keeps its creation time |
| Dashboard.DeleteKeepsOrder | src/app/dashboard/page.tsx:157 | deleting keeps the relative order of the remaining entries |
| EndToEnd.SuccessRoundTrip | src/lib/utils/api.ts:46-49 | a 2xx success envelope reaches the client as its data |
| EndToEnd.ErrorRoundTrip | src/lib/utils/api.ts:39-44 | an error envelope reaches the client as its message, or the fallback when empty |
| EndToEnd.ClientHeaderParsed | src/lib/utils/api.ts:21 | the header the client builds for a non-empty, space-free token is parsed back to that token |
| EndToEnd.ClientSessionAuthenticates | src/lib/utils/api.ts:19-22 | a token issued for a user and sent by the client authenticates as that user |
| EndToEnd.ListingThroughClient | src/lib/utils/api.ts:8-58 | without a token the listing fails with "Authentication required"; with an issued token it returns exactly that user's listing |
| EndToEnd.CompletedPageStartsCompleted | src/app/tasks/completed/page.tsx:38-51 | loading the listing of completed tasks gives that listing, and every task on it is completed |

## Left out

- Database connection and caching: global mutable state and I/O. The stores are sequences passed in. Their calls, and reading the request body, are assumed to succeed: a failure there throws, and the route wrapper would classify its message.
- Mongoose, jsonwebtoken and bcrypt: `find`, `create`, `sign`, `verify` and password comparison are function values. Their only assumed properties are the predicates `Auth.RoundTrips` and `AuthRoutes.Sound`, taken as preconditions. The user model is not part of this model.
- Per-task routes for one task id: they are not part of this model, and neither is their ownership or malformed-id checking.
- Casting a query value to the schema's types: a status or priority outside the enumeration simply matches no stored task.
- A request body that is not JSON, and body fields that are not strings.
- The browser's task service: its answers are parameters of the completed-tasks and analytics handlers.
- The `defaultFilters` and `disableStatusFilter` props: the completed-tasks page passes them, but the list component never declares them, so they have no effect.
- The authentication context: a mock with hard-coded users, local storage and timers.
- The dashboard's mock data and simulated delays.
- Loading flags: UI state only.
- Thrown exceptions in the page handlers: the request helper never throws.
- Completion-rate formatting: the rate is an exact real, where the browser computes a floating-point percentage and rounds it for display.
- Response wrappers: the listing answers with the bare task sequence, where the route wraps it as `{ tasks }`. Creation answers with the bare task instead of `{ task }`, and `/me` with the bare public user instead of `{ user }`. The wrapper adds no information. Signup and login keep their `{ user, token }` shape as `Session`.
- TaskForm.Submission: the form also submits `_id: undefined`, and the completed page's spread of that over a fetched task clears the task's database `_id`. The client task here carries one id, `id`, and no `_id`, so that clearing is not modelled.
- Dates: timestamps are integers. Parsing, time zones and locale formatting are not modelled.
- Presentation components: header, footer, layout, modal, button, input, select, providers and the auth pages.
- Token expiry: tokens are signed without it, so nothing expires.
- Sorting.SortBy: the store's native sort by creation time is modelled as stable, like the in-memory sort. The order of ties it returns is not modelled separately.
- AuthRoutes.SignupThenMe: assumes the signer's tokens are non-empty and contain no space, which a JSON Web Token in compact form satisfies.
- AuthRoutes.Login: reads the users and returns only a response. That login never changes the users holds by construction and is not a separate contract.
- ApiClient.ApiRequest: has no contract of its own. Its behaviour is `BuildRequest` followed by `Unwrap`, and `EndToEnd.ListingThroughClient` states it end to end.

=== FILE: analytics.dfy ===
/** The analytics page's figures over the tasks it loaded: totals, the
    completion rate (exact, where the browser uses floating point), the
    priority distribution, and the five tasks shown as recent activity. */
module Analytics {
  import opened Common
  import opened TaskModel

  datatype Distribution = Distribution(high: nat, medium: nat, low: nat)

  datatype Figures = Figures(
    total: nat,
    completed: nat,
    pending: int,
    rate: real,
    distribution: Distribution)

  /** The figures shown before any task has loaded. */
  const InitialFigures := Figures(0, 0, 0, 0.0, Distribution(0, 0, 0))

  /** Reference definition: how many tasks satisfy `p`. */
  function CountOf(tasks: seq<Task>, p: Task -> bool): nat {
    if tasks == [] then 0 else (if p(tasks[0]) then 1 else 0) + CountOf(tasks[1..], p)
  }

  function HasStatus(s: Status): Task -> bool {
    (t: Task) => t.status == s
  }

  function HasPriority(p: Priority): Task -> bool {
    (t: Task) => t.priority == p
  }

  /** The length of a filtered list is the number of elements that pass. */
  lemma {:induction false} FilterCount(tasks: seq<Task>, p: Task -> bool)
    ensures |Filter(tasks, p)| == CountOf(tasks, p)
  {
    if tasks != [] {
      FilterCount(tasks[1..], p);
    }
  }

  /** Every task is pending or completed, so the two counts add up. */
  lemma {:induction false} StatusCountsAddUp(tasks: seq<Task>)
    ensures CountOf(tasks, HasStatus(Pending)) + CountOf(tasks, HasStatus(Completed)) == |tasks|
  {
    if tasks != [] {
      StatusCountsAddUp(tasks[1..]);
    }
  }

  /** `distribution[task.priority]++`. */
  function Bump(d: Distribution, p: Priority): (r: Distribution)
    ensures r.high + r.medium + r.low == d.high + d.medium + d.low + 1
  {
    match p
    case High => d.(high := d.high + 1)
    case Medium => d.(medium := d.medium + 1)
    case Low => d.(low := d.low + 1)
  }

  /** The `forEach` over the tasks, one bump per task, in order. */
  function Tally(tasks: seq<Task>, d: Distribution): (r: Distribution)
    ensures r.high + r.medium + r.low == d.high + d.medium + d.low + |tasks|
  {
    if tasks == [] then d else Tally(tasks[1..], Bump(d, tasks[0].priority))
  }

  /** Each bucket of the tally counts the tasks of its priority. */
  lemma {:induction false} TallyCounts(tasks: seq<Task>, d: Distribution)
    ensures Tally(tasks, d).high == d.high + CountOf(tasks, HasPriority(High))
    ensures Tally(tasks, d).medium == d.medium + CountOf(tasks, HasPriority(Medium))
    ensures Tally(tasks, d).low == d.low + CountOf(tasks, HasPriority(Low))
  {
    if tasks != [] {
      TallyCounts(tasks[1..], Bump(d, tasks[0].priority));
    }
  }

  /** `whole > 0 ? (part / whole) * 100 : 0`, a percentage. */
  function Percentage(part: nat, whole: nat): (r: real)
    requires part <= whole
    ensures 0.0 <= r <= 100.0
    ensures r == 0.0 <==> part == 0
    ensures r == 100.0 <==> whole > 0 && part == whole
  {
    if whole > 0 then
      QuotientBounds(part, whole);
      (part as real / whole as real) * 100.0
    else 0.0
  }

  lemma QuotientBounds(part: nat, whole: nat)
    requires part <= whole && whole > 0
    ensures var q := part as real / whole as real;
      && 0.0 <= q <= 1.0 && (q == 0.0 <==> part == 0) && (q == 1.0 <==> part == whole)
  {
    var q := part as real / whole as real;
    assert q * whole as real == part as real;
  }

  /** `calculateAnalytics`. The completion rate is a percentage: zero with
      no tasks or none completed, a hundred exactly when every one of some
      tasks is completed. */
  function Calculate(tasks: seq<Task>): (f: Figures)
    ensures f.total == |tasks|
    ensures f.completed == CountOf(tasks, HasStatus(Completed))
    ensures f.pending == CountOf(tasks, HasStatus(Pending))
    ensures f.distribution.high == CountOf(tasks, HasPriority(High))
    ensures f.distribution.medium == CountOf(tasks, HasPriority(Medium))
    ensures f.distribution.low == CountOf(tasks, HasPriority(Low))
    ensures f.distribution.high + f.distribution.medium + f.distribution.low == f.total
    ensures 0.0 <= f.rate <= 100.0
    ensures f.rate == 0.0 <==> f.completed == 0
    ensures f.rate == 100.0 <==> tasks != [] && f.pending == 0
  {
    var total := |tasks|;
    var completed := |Filter(tasks, HasStatus(Completed))|;
    FilterCount(tasks, HasStatus(Completed));
    StatusCountsAddUp(tasks);
    TallyCounts(tasks, Distribution(0, 0, 0));
    Figures(total, completed, total - completed, Percentage(completed, total),
            Tally(tasks, Distribution(0, 0, 0)))
  }

  /** With no tasks every figure is zero, as before loading. */
  lemma NoTasksNoFigures()
    ensures Calculate([]) == InitialFigures
  {
  }

  const RecentCount := 5

  /** `tasks.slice(0, 5)`: the first five tasks, or all when fewer. */
  function Recent(tasks: seq<Task>): (r: seq<Task>)
    ensures |r| == if |tasks| < RecentCount then |tasks| else RecentCount
    ensures forall i :: 0 <= i < |r| ==> r[i] == tasks[i]
  {
    if |tasks| < RecentCount then tasks else tasks[..RecentCount]
  }

  /** The recent tasks are a prefix, and taking them twice takes them once. */
  lemma RecentIsPrefix(tasks: seq<Task>)
    ensures tasks == Recent(tasks) + tasks[|Recent(tasks)|..]
    ensures Recent(Recent(tasks)) == Recent(tasks)
  {
  }
}

=== FILE: api_client.dfy ===
/** The browser-side request helper `apiRequest` and the `api` shorthands:
    how a request is shaped (URL, headers, body) and how the answer, or a
    failure to get one, is turned into `{success, data}` or
    `{success, error}`. The stored token and the network are parameters. */
module ApiClient {
  import opened Common

  const BaseUrl := "/api"
  const JsonContentType := "application/json"
  const FallbackError := "Something went wrong"
  const UnknownError := "An unknown error occurred"

  /** The request `fetch` is given. `body` is the payload that gets
      serialised, `authorization` the `Authorization` header if set. */
  datatype Request<T> = Request(url: string, verb: string, contentType: string,
                                authorization: Option<string>, body: Option<T>)

  /** Whether `apiRequest` attaches a body for this method. */
  predicate CarriesBody(verb: string) {
    verb == "POST" || verb == "PUT" || verb == "PATCH"
  }

  /** Shapes a request. `token` is what local storage holds under "token";
      `data` is the payload, `None` when it is absent (payloads are objects,
      so a present one is truthy). */
  function BuildRequest<T>(endpoint: string, verb: string, token: Option<string>, data: Option<T>): (r: Request<T>)
    ensures r.url == BaseUrl + endpoint && r.verb == verb && r.contentType == JsonContentType
    ensures r.authorization.Some? <==> Truthy(token)
    ensures r.authorization.Some? ==> r.authorization.value == "Bearer " + token.value
    ensures r.body.Some? <==> data.Some? && CarriesBody(verb)
    ensures r.body.Some? ==> r.body == data
  {
    Request(BaseUrl + endpoint, verb, JsonContentType,
            if Truthy(token) then Some("Bearer " + token.value) else None,
            if data.Some? && CarriesBody(verb) then data else None)
  }

  /** The parsed JSON body of an answer: its `data` and `error` properties. */
  datatype WireBody<T> = WireBody(data: Option<T>, error: Option<string>)

  /** What `fetch` and `response.json()` produce: an answer with its `ok`
      flag and parsed body, or a thrown value (`Some(message)` for an
      `Error`, `None` for anything else). */
  datatype Transport<T> = Received(ok: bool, body: WireBody<T>) | Raised(error: Option<string>)

  /** The `ApiResponse` the helper resolves to. */
  datatype ApiResult<T> = Succeeded(data: Option<T>) | Failed(error: string)

  /** Turns the transport result into an `ApiResponse`: an answer that is
      not ok carries the server's error, or a fixed fallback when that is
      missing or empty; an ok answer carries the body's `data`; a thrown
      `Error` carries its message. */
  function Unwrap<T>(t: Transport<T>): (r: ApiResult<T>)
    ensures r.Succeeded? <==> t.Received? && t.ok
    ensures r.Succeeded? ==> r.data == t.body.data
    ensures t.Received? && !t.ok ==> r.error == (if Truthy(t.body.error) then t.body.error.value else FallbackError)
    ensures t.Raised? ==> r.error == (if t.error.Some? then t.error.value else UnknownError)
    ensures r.Failed? ==> r.error != "" || (t.Raised? && t.error == Some(""))
  {
    match t
    case Received(ok, body) =>
      if !ok then Failed(OrElse(body.error, FallbackError)) else Succeeded(body.data)
    case Raised(error) =>
      Failed(if error.Some? then error.value else UnknownError)
  }

  /** `apiRequest(endpoint, method, data)`: shapes the request, hands it to
      the network, and unwraps what comes back. */
  function ApiRequest<T>(endpoint: string, verb: string, token: Option<string>, data: Option<T>,
                         network: Request<T> -> Transport<T>): ApiResult<T>
  {
    Unwrap(network(BuildRequest(endpoint, verb, token, data)))
  }

  /** `api.get` and `api.delete` never send a body, whatever they are given;
      `api.post`, `api.put` and `api.patch` send their payload. */
  lemma ShorthandBodies<T>(endpoint: string, token: Option<string>, data: T)
    ensures BuildRequest<T>(endpoint, "GET", token, None).body.None?
    ensures BuildRequest<T>(endpoint, "DELETE", token, Some(data)).body.None?
    ensures BuildRequest(endpoint, "POST", token, Some(data)).body == Some(data)
    ensures BuildRequest(endpoint, "PUT", token, Some(data)).body == Some(data)
    ensures BuildRequest(endpoint, "PATCH", token, Some(data)).body == Some(data)
  {
  }
}

=== FILE: api_middleware.dfy ===
/** The JSON envelope every route answers with, and the two wrappers that
    turn a thrown error into an error response: `methodHandler` dispatches
    on the HTTP verb and `asyncHandler` wraps a single handler. Both pick
    the status by searching the error message for fixed substrings. */
module ApiMiddleware {
  import opened Common
  import opened Text

  /** `{success: true, data}` or `{success: false, error}`. */
  datatype Body<+T> = Success(data: T) | Failure(error: string)

  /** A JSON response: the HTTP status and the envelope. */
  datatype Response<+T> = Response(status: int, body: Body<T>)

  /** What `errorResponse` accepts: an `Error` object or a plain string. */
  datatype ErrorValue = ErrorObject(message: string) | Plain(text: string)

  /** What a route handler does: it returns a response or throws an `Error`
      with a message. */
  datatype Outcome<+T> = Returned(response: Response<T>) | Threw(message: string)

  const DefaultSuccessStatus := 200
  const DefaultErrorStatus := 400
  const MethodNotAllowedStatus := 405
  const InternalErrorStatus := 500

  /** `successResponse(data, status = 200)`; `None` is an omitted status. */
  function SuccessResponse<T>(data: T, status: Option<int>): (r: Response<T>)
    ensures r.body.Success? && r.body.data == data
    ensures status.None? ==> r.status == DefaultSuccessStatus
    ensures status.Some? ==> r.status == status.value
  {
    Response(if status.Some? then status.value else DefaultSuccessStatus, Success(data))
  }

  /** `errorResponse(error, status = 400)`: the envelope carries the error's
      message, or the string itself. */
  function ErrorResponse<T>(error: ErrorValue, status: Option<int>): (r: Response<T>)
    ensures r.body.Failure?
    ensures r.body.error == match error case ErrorObject(m) => m case Plain(s) => s
    ensures status.None? ==> r.status == DefaultErrorStatus
    ensures status.Some? ==> r.status == status.value
  {
    var message := match error case ErrorObject(m) => m case Plain(s) => s;
    Response(if status.Some? then status.value else DefaultErrorStatus, Failure(message))
  }

  /** One classification rule: a message containing `needle` gets `status`. */
  datatype Rule = Rule(needle: string, status: int)

  /** Applies the rules in order, each matching rule overwriting the status
      chosen so far; `code` is the status before the first rule. */
  function Classify(rules: seq<Rule>, message: string, code: int): int {
    if rules == [] then code
    else
      Classify(rules[1..], message, if Contains(message, rules[0].needle) then rules[0].status else code)
  }

  /** Overwriting in order means the last matching rule decides. */
  lemma {:induction false} ClassifyLastMatch(rules: seq<Rule>, message: string, code: int, i: nat)
    requires i < |rules| && Contains(message, rules[i].needle)
    requires forall j :: i < j < |rules| ==> !Contains(message, rules[j].needle)
    ensures Classify(rules, message, code) == rules[i].status
  {
    var next := if Contains(message, rules[0].needle) then rules[0].status else code;
    if i == 0 {
      ClassifyNoMatch(rules[1..], message, next);
    } else {
      ClassifyLastMatch(rules[1..], message, next, i - 1);
    }
  }

  /** With no matching rule the status stays what it was. */
  lemma {:induction false} ClassifyNoMatch(rules: seq<Rule>, message: string, code: int)
    requires forall j :: 0 <= j < |rules| ==> !Contains(message, rules[j].needle)
    ensures Classify(rules, message, code) == code
  {
    if rules != [] {
      ClassifyNoMatch(rules[1..], message, code);
    }
  }

  /** The rules of `methodHandler`, in the order they are tried. */
  const MethodRules := [Rule("Authentication", 401), Rule("Permission", 403),
                        Rule("not found", 404), Rule("already exists", 409)]

  /** The rules of `asyncHandler`: the same, then "validation". */
  const AsyncRules := MethodRules + [Rule("validation", 400)]

  /** The status `methodHandler` gives a thrown error: since the last
      matching rule wins, a later rule outranks every earlier one. */
  function MethodStatus(message: string): (code: int)
    ensures Contains(message, "already exists") ==> code == 409
    ensures !Contains(message, "already exists") && Contains(message, "not found") ==> code == 404
    ensures (&& !Contains(message, "already exists") && !Contains(message, "not found")
             && Contains(message, "Permission")) ==> code == 403
    ensures (&& !Contains(message, "already exists") && !Contains(message, "not found")
             && !Contains(message, "Permission") && Contains(message, "Authentication")) ==> code == 401
    ensures (&& !Contains(message, "already exists") && !Contains(message, "not found")
             && !Contains(message, "Permission") && !Contains(message, "Authentication")) ==> code == 500
  {
    MethodRulesUnrolled(message);
    Classify(MethodRules, message, InternalErrorStatus)
  }

  /** The four rules of `methodHandler`, one overwrite at a time. */
  lemma MethodRulesUnrolled(message: string)
    ensures Classify(MethodRules, message, InternalErrorStatus) ==
      var c1 := if Contains(message, "Authentication") then 401 else InternalErrorStatus;
      var c2 := if Contains(message, "Permission") then 403 else c1;
      var c3 := if Contains(message, "not found") then 404 else c2;
      if Contains(message, "already exists") then 409 else c3
  {
    var rules := MethodRules;
    var c1 := if Contains(message, "Authentication") then 401 else InternalErrorStatus;
    var c2 := if Contains(message, "Permission") then 403 else c1;
    var c3 := if Contains(message, "not found") then 404 else c2;
    var c4 := if Contains(message, "already exists") then 409 else c3;
    assert Classify(rules, message, InternalErrorStatus) == Classify(rules[1..], message, c1);
    assert Classify(rules[1..], message, c1) == Classify(rules[2..], message, c2) by {
      assert rules[1..][1..] == rules[2..];
    }
    assert Classify(rules[2..], message, c2) == Classify(rules[3..], message, c3) by {
      assert rules[2..][1..] == rules[3..];
    }
    assert Classify(rules[3..], message, c3) == Classify(rules[4..], message, c4) by {
      assert rules[3..][1..] == rules[4..];
    }
  }

  /** The status `asyncHandler` gives a thrown error: "validation" outranks
      everything, and otherwise it agrees with `methodHandler`. */
  function AsyncStatus(message: string): (code: int)
    ensures code == if Contains(message, "validation") then 400 else MethodStatus(message)
  {
    ClassifyAppend(MethodRules, [Rule("validation", 400)], message, InternalErrorStatus);
    assert [Rule("validation", 400)][1..] == [];
    Classify(AsyncRules, message, InternalErrorStatus)
  }

  /** Running two rule lists one after the other is running their concatenation. */
  lemma {:induction false} ClassifyAppend(a: seq<Rule>, b: seq<Rule>, message: string, code: int)
    ensures Classify(a + b, message, code) == Classify(b, message, Classify(a, message, code))
  {
    if a == [] {
      assert a + b == b;
    } else {
      assert (a + b)[1..] == a[1..] + b;
      ClassifyAppend(a[1..], b, message,
                     if Contains(message, a[0].needle) then a[0].status else code);
    }
  }

  /** `methodHandler`: a verb with no registered handler answers 405;
      otherwise the handler's response goes out as it is, and a thrown error
      becomes an error response with the classified status. */
  function MethodHandler<T>(registered: set<string>, verb: string, outcome: Outcome<T>): (r: Response<T>)
    ensures verb !in registered ==> r == Response(MethodNotAllowedStatus, Failure("Method " + verb + " not allowed"))
    ensures verb in registered && outcome.Returned? ==> r == outcome.response
    ensures verb in registered && outcome.Threw? ==>
              r == Response(MethodStatus(outcome.message), Failure(outcome.message))
  {
    if verb !in registered then
      ErrorResponse(Plain("Method " + verb + " not allowed"), Some(MethodNotAllowedStatus))
    else
      match outcome
      case Returned(response) => response
      case Threw(message) => ErrorResponse(ErrorObject(message), Some(MethodStatus(message)))
  }

  /** `asyncHandler`: the same, for a single handler and with the extra rule. */
  function AsyncHandler<T>(outcome: Outcome<T>): (r: Response<T>)
    ensures outcome.Returned? ==> r == outcome.response
    ensures outcome.Threw? ==> r == Response(AsyncStatus(outcome.message), Failure(outcome.message))
  {
    match outcome
    case Returned(response) => response
    case Threw(message) => ErrorResponse(ErrorObject(message), Some(AsyncStatus(message)))
  }

  /** No character of `s` is in `cs`. */
  predicate Avoids(s: string, cs: set<char>) {
    forall i :: 0 <= i < |s| ==> s[i] !in cs
  }

  /** `a` is never directly followed by `b` in `s`. */
  predicate AvoidsPair(s: string, a: char, b: char) {
    forall i :: 0 <= i < |s| - 1 ==> !(s[i] == a && s[i + 1] == b)
  }

  /** A character of `sub` that never occurs in `s` rules out `sub` as a
      substring of `s`. */
  lemma AbsentChar(s: string, sub: string, k: nat)
    requires k < |sub| && Avoids(s, {sub[k]})
    ensures !Contains(s, sub)
  {
    forall i | 0 <= i <= |s| ensures !StartsWith(s[i..], sub) {
      if i + |sub| <= |s| {
        assert s[i..][k] == s[i + k];
      }
    }
  }

  /** Two adjacent characters of `sub` that never occur side by side in `s`
      rule out `sub` as a substring of `s`. */
  lemma AbsentPair(s: string, sub: string, k: nat)
    requires k + 1 < |sub| && AvoidsPair(s, sub[k], sub[k + 1])
    ensures !Contains(s, sub)
  {
    forall i | 0 <= i <= |s| ensures !StartsWith(s[i..], sub) {
      if i + |sub| <= |s| {
        assert s[i..][k] == s[i + k] && s[i..][k + 1] == s[i + k + 1];
      }
    }
  }

  /** `sub` occurs in `s` at position `i`. */
  lemma PresentAt(s: string, sub: string, i: nat)
    requires i + |sub| <= |s| && s[i..i + |sub|] == sub
    ensures Contains(s, sub)
  {
    assert StartsWith(s[i..], sub);
  }

  /** A message without the letters 'A', 'P', 'f' and 'y' matches none of
      the four rules: "Authentication", "Permission", "not found" and
      "already exists" each contain one of them. */
  lemma NoMethodRuleMatches(m: string)
    requires Avoids(m, {'A', 'P', 'f', 'y'})
    ensures MethodStatus(m) == 500
  {
    AbsentChar(m, "Authentication", 0);
    AbsentChar(m, "Permission", 0);
    AbsentChar(m, "not found", 4);
    AbsentChar(m, "already exists", 6);
  }

  /** Matching is case-sensitive substring search, so the token failure is
      not an authentication error to the classifier: it gets 500 under
      both wrappers. */
  lemma InvalidTokenIsServerError()
    ensures MethodStatus("Invalid or expired token") == 500
    ensures AsyncStatus("Invalid or expired token") == 500
  {
    NoRuleMatches("Invalid or expired token");
  }

  /** A message that avoids one letter of each method rule and one
      adjacent pair of "validation" gets 500 from both wrappers. */
  lemma NoRuleMatches(m: string)
    requires Avoids(m, {'A', 'P', 'f', 'y'}) && AvoidsPair(m, 'a', 't')
    ensures MethodStatus(m) == 500 && AsyncStatus(m) == 500
  {
    NoMethodRuleMatches(m);
    AbsentPair(m, "validation", 5);
  }

  /** A missing title is not matched by any rule either: 500. */
  lemma MissingTitleIsServerError()
    ensures MethodStatus("Title is required") == 500
  {
    NoMethodRuleMatches("Title is required");
  }

  /** A missing or empty token is an authentication error: 401. */
  lemma RequiredIsUnauthorized()
    ensures MethodStatus("Authentication required") == 401
    ensures AsyncStatus("Authentication required") == 401
  {
    OnlyAuthenticationMatches("Authentication required");
  }

  /** A message that starts with "Authentication" and avoids one letter of
      every later rule gets 401 from both wrappers. */
  lemma OnlyAuthenticationMatches(m: string)
    requires StartsWith(m, "Authentication") && Avoids(m, {'P', 'f', 'y', 'v'})
    ensures MethodStatus(m) == 401 && AsyncStatus(m) == 401
  {
    PresentAt(m, "Authentication", 0);
    AbsentChar(m, "Permission", 0);
    AbsentChar(m, "not found", 4);
    AbsentChar(m, "already exists", 6);
    AbsentChar(m, "validation", 0);
  }

  /** A missing user is a not-found error: 404. */
  lemma UserNotFoundIsNotFound()
    ensures AsyncStatus("User not found") == 404
  {
    var m := "User not found";
    assert m == "User " + "not found";
    NotFoundMatches("User ", "not found");
  }

  /** A message that ends in "not found" and avoids one letter of each later
      rule gets 404 from both wrappers. */
  lemma NotFoundMatches(head: string, tail: string)
    requires tail == "not found" && Avoids(head + tail, {'y', 'v'})
    ensures MethodStatus(head + tail) == 404 && AsyncStatus(head + tail) == 404
  {
    var m := head + tail;
    assert m[|head|..|head| + |tail|] == tail;
    PresentAt(m, "not found", |head|);
    AbsentChar(m, "already exists", 6);
    AbsentChar(m, "validation", 0);
  }

  /** The later rule wins when two match. */
  lemma LaterRuleWins(message: string)
    requires Contains(message, "Authentication") && Contains(message, "not found")
    requires !Contains(message, "already exists")
    ensures MethodStatus(message) == 404
    ensures !Contains(message, "validation") ==> AsyncStatus(message) == 404
    ensures Contains(message, "validation") ==> AsyncStatus(message) == 400
  {
  }
}

=== FILE: auth.dfy ===
/** Token issue and verification, and the bearer-token gate every
    authenticated handler runs first.

    The signing library is a pair of functions over a secret; the only thing
    the model assumes of it is the round trip `verify(sign(c, k), k) == c`,
    stated as the predicate `RoundTrips` and required by the lemmas that
    need it. */
module Auth {
  import opened Common
  import opened Text

  /** The claims a token carries: exactly the user's id, name and email. */
  datatype Claims = Claims(userId: string, name: string, email: string)

  /** A stored user; `passwordDigest` is never sent out. */
  datatype User = User(id: string, name: string, email: string, passwordDigest: string)

  /** The signing library: `sign(claims, secret)` and `verify(token, secret)`,
      the latter `None` when the signature or the payload is bad. */
  datatype Jwt = Jwt(sign: (Claims, string) -> string, verify: (string, string) -> Option<Claims>)

  /** The configured token service: the library and the server secret. */
  datatype TokenService = TokenService(jwt: Jwt, secret: string)

  ghost predicate RoundTrips(jwt: Jwt) {
    forall c, k :: jwt.verify(jwt.sign(c, k), k) == Some(c)
  }

  const MissingSecretMessage := "Please define the JWT_SECRET environment variable inside .env.local"
  const RequiredMessage := "Authentication required"
  const InvalidTokenMessage := "Invalid or expired token"
  const FailedMessage := "Authentication failed"

  /** Loading the module: an unset or empty `JWT_SECRET` stops it with an
      error; otherwise the service signs with that secret. The configured
      expiry (`JWT_EXPIRES_IN`) is read but never passed to the signer. */
  function Configure(jwt: Jwt, secretVariable: Option<string>): (r: Result<TokenService>)
    ensures r.Err? <==> !Truthy(secretVariable)
    ensures r.Err? ==> r.error == MissingSecretMessage
    ensures r.Ok? ==> r.value == TokenService(jwt, secretVariable.value)
  {
    var secret := OrElse(secretVariable, "");
    if secret == "" then Err(MissingSecretMessage) else Ok(TokenService(jwt, secret))
  }

  function ClaimsOf(u: User): Claims {
    Claims(u.id, u.name, u.email)
  }

  /** `createToken`: signs the user's id, name and email, with no expiry. */
  function CreateToken(svc: TokenService, u: User): string {
    svc.jwt.sign(ClaimsOf(u), svc.secret)
  }

  /** `verifyToken`: any verification failure becomes one fixed message. */
  function VerifyToken(svc: TokenService, token: string): (r: Result<Claims>)
    ensures r.Err? <==> svc.jwt.verify(token, svc.secret).None?
    ensures r.Err? ==> r.error == InvalidTokenMessage
    ensures r.Ok? ==> Some(r.value) == svc.jwt.verify(token, svc.secret)
  {
    match svc.jwt.verify(token, svc.secret)
    case Some(c) => Ok(c)
    case None => Err(InvalidTokenMessage)
  }

  /** A token the service issued for `u` verifies to exactly `u`'s claims. */
  lemma TokenRoundTrip(svc: TokenService, u: User)
    requires RoundTrips(svc.jwt)
    ensures VerifyToken(svc, CreateToken(svc, u)) == Ok(Claims(u.id, u.name, u.email))
  {
  }

  const BearerPrefix := "Bearer "

  /** `getTokenFromRequest`: a header that is missing, empty or does not start
      with the case-sensitive "Bearer " yields no token; otherwise the token
      is the second field of the header split on single spaces. */
  function TokenFromHeader(header: Option<string>): (r: Option<string>)
    ensures r.Some? <==> header.Some? && StartsWith(header.value, BearerPrefix)
    ensures r.Some? ==> ' ' !in r.value
    ensures r.Some? ==> StartsWith(header.value, BearerPrefix + r.value)
    ensures r.Some? ==> var n := |BearerPrefix + r.value|;
                        n == |header.value| || header.value[n] == ' '
  {
    if !Truthy(header) || !StartsWith(header.value, BearerPrefix) then None
    else
      var h := header.value;
      var rest := h[|BearerPrefix|..];
      assert h == "Bearer" + [' '] + rest;
      SplitAfterWord("Bearer", rest, ' ');
      var token := Split(h, ' ')[1];
      SplitFirst(rest, ' ');
      assert StartsWith(h, BearerPrefix + token);
      Some(token)
  }

  /** A space-free value behind "Bearer " comes back out of the header unchanged. */
  lemma BearerRoundTrip(token: string)
    requires ' ' !in token
    ensures TokenFromHeader(Some(BearerPrefix + token)) == Some(token)
  {
    var h := BearerPrefix + token;
    assert h[|BearerPrefix|..] == token;
    assert StartsWith(h, BearerPrefix);
    assert h == "Bearer" + [' '] + token;
    SplitAfterWord("Bearer", token, ' ');
    SplitWord(token, ' ');
  }

  /** The field split takes only what precedes the next space: a bare prefix
      gives the empty token, ... */
  lemma BareBearer()
    ensures TokenFromHeader(Some("Bearer ")) == Some("")
  {
    BearerRoundTrip("");
    assert BearerPrefix + "" == "Bearer ";
  }

  /** ... so does a doubled space, ... */
  lemma DoubleSpaceBearer()
    ensures TokenFromHeader(Some("Bearer  x")) == Some("")
  {
    var h := "Bearer  x";
    assert StartsWith(h, BearerPrefix);
    assert h == "Bearer" + [' '] + " x";
    SplitAfterWord("Bearer", " x", ' ');
    assert " x" == "" + [' '] + "x";
    SplitAfterWord("", "x", ' ');
  }

  /** The token is the first space-delimited field after the prefix. */
  lemma FirstFieldIsToken(rest: string)
    ensures TokenFromHeader(Some(BearerPrefix + rest)) == Some(Split(rest, ' ')[0])
  {
    var h := BearerPrefix + rest;
    assert h[|BearerPrefix|..] == rest;
    assert StartsWith(h, BearerPrefix);
    assert h == "Bearer" + [' '] + rest;
    SplitAfterWord("Bearer", rest, ' ');
  }

  /** ... and anything after a second space is dropped. */
  lemma TrailingFieldBearer()
    ensures TokenFromHeader(Some("Bearer a b")) == Some("a")
  {
    assert "Bearer a b" == BearerPrefix + "a b";
    FirstFieldIsToken("a b");
    assert "a b" == "a" + [' '] + "b";
    SplitAfterWord("a", "b", ' ');
  }

  /** The prefix is case-sensitive. */
  lemma LowerCaseBearer()
    ensures TokenFromHeader(Some("bearer x")) == None
  {
    assert "bearer x"[0] != BearerPrefix[0];
  }

  /** `authenticate`: no token or an empty one fails with "Authentication
      required"; otherwise the token's verification decides. The handler
      rethrows every failure with its own message, or "Authentication failed"
      for a message-less one, so the message reaches the caller unchanged. */
  function Authenticate(svc: TokenService, header: Option<string>): (r: Result<Claims>)
    ensures r.Err? ==> r.error == RequiredMessage || r.error == InvalidTokenMessage
    ensures r.Err? && r.error == RequiredMessage <==> !Truthy(TokenFromHeader(header))
    ensures r.Ok? <==> && Truthy(TokenFromHeader(header))
                       && svc.jwt.verify(TokenFromHeader(header).value, svc.secret).Some?
    ensures r.Ok? ==> Some(r.value) == svc.jwt.verify(TokenFromHeader(header).value, svc.secret)
  {
    var attempt :=
      match TokenFromHeader(header)
      case None => Err(RequiredMessage)
      case Some(token) => if token == "" then Err(RequiredMessage) else VerifyToken(svc, token);
    match attempt
    case Ok(c) => Ok(c)
    case Err(message) => Err(if message == "" then FailedMessage else message)
  }
}

=== FILE: auth_routes.dfy ===
/** The three account endpoints: signup, login and the current-user lookup.
    The user collection is a sequence in insertion order (a lookup finds the
    first match); password hashing is a pair of functions over which only
    the property the handlers rely on is assumed. */
module AuthRoutes {
  import opened Common
  import opened Text
  import opened Auth
  import opened ApiMiddleware

  /** The password hasher of the user model: `hash` is what the pre-save
      hook stores, `matches(candidate, digest)` is `comparePassword`. */
  datatype Hasher = Hasher(hash: string -> string, matches: (string, string) -> bool)

  /** A password always matches its own digest. */
  ghost predicate Sound(h: Hasher) {
    forall p :: h.matches(p, h.hash(p))
  }

  /** The user fields a response carries: never the password. */
  datatype PublicUser = PublicUser(id: string, name: string, email: string)

  /** The data of a signup or login response: the user and a fresh token. */
  datatype Session = Session(user: PublicUser, token: string)

  function PublicOf(u: User): PublicUser {
    PublicUser(u.id, u.name, u.email)
  }

  /** The first user that satisfies `p`, as `User.findOne` and
      `User.findById` return it. */
  function FindUser(users: seq<User>, p: User -> bool): (r: Option<User>)
    ensures r.None? <==> forall u :: u in users ==> !p(u)
    ensures r.Some? ==> r.value in users && p(r.value)
  {
    if users == [] then None
    else if p(users[0]) then Some(users[0])
    else FindUser(users[1..], p)
  }

  /** The `{email}` filter of the login and signup lookups. */
  function HasEmail(email: string): User -> bool {
    (u: User) => u.email == email
  }

  /** The id `findById` looks for. */
  function HasId(id: string): User -> bool {
    (u: User) => u.id == id
  }

  /** No two users share an email. */
  predicate EmailsUnique(users: seq<User>) {
    forall i, j :: 0 <= i < j < |users| ==> users[i].email != users[j].email
  }

  const MinPasswordLength := 8
  const FieldsMessage := "Please provide all required fields"
  const MismatchMessage := "Passwords do not match"
  const ShortPasswordMessage := "Password must be at least 8 characters long"
  const EmailInUseMessage := "Email already in use"
  const LoginFieldsMessage := "Please provide email and password"
  const InvalidCredentialsMessage := "Invalid credentials"
  const UserNotFoundMessage := "User not found"

  /** The signup request body. */
  datatype SignupBody = SignupBody(name: Option<string>, email: Option<string>,
                                   password: Option<string>, confirmPassword: Option<string>)

  /** The signup response and the user collection after it. */
  datatype SignedUp = SignedUp(response: Response<Session>, users: seq<User>)

  /** The first signup check that fails, if any; the checks run in the order
      fields, confirmation, length, then the duplicate-email lookup. */
  function SignupRejection(body: SignupBody, users: seq<User>): (r: Option<Response<Session>>)
    ensures !Truthy(body.name) || !Truthy(body.email) || !Truthy(body.password) ==>
              r == Some(Response(400, Failure(FieldsMessage)))
    ensures Truthy(body.name) && Truthy(body.email) && Truthy(body.password) ==>
              && (body.confirmPassword != body.password ==> r == Some(Response(400, Failure(MismatchMessage))))
              && (body.confirmPassword == body.password && Utf16Length(body.password.value) < MinPasswordLength ==>
                    r == Some(Response(400, Failure(ShortPasswordMessage))))
              && (body.confirmPassword == body.password && Utf16Length(body.password.value) >= MinPasswordLength ==>
                    (r.Some? <==> exists u :: u in users && u.email == body.email.value))
              && (body.confirmPassword == body.password && Utf16Length(body.password.value) >= MinPasswordLength
                    && (exists u :: u in users && u.email == body.email.value) ==>
                    r == Some(Response(409, Failure(EmailInUseMessage))))
    ensures r.Some? ==> r.value.body.Failure?
  {
    if !Truthy(body.name) || !Truthy(body.email) || !Truthy(body.password) then
      Some(ErrorResponse(Plain(FieldsMessage), Some(400)))
    else if body.password != body.confirmPassword then
      Some(ErrorResponse(Plain(MismatchMessage), Some(400)))
    else if Utf16Length(body.password.value) < MinPasswordLength then
      Some(ErrorResponse(Plain(ShortPasswordMessage), Some(400)))
    else if FindUser(users, HasEmail(body.email.value)).Some? then
      Some(ErrorResponse(Plain(EmailInUseMessage), Some(409)))
    else
      None
  }

  /** `POST /api/auth/signup`: a rejected request changes nothing; an
      accepted one appends exactly one user, with the hashed password and the
      id `newId` the store assigns, and answers 201 with the user's public
      fields and a token for them. */
  function Signup(svc: TokenService, hasher: Hasher, body: SignupBody, users: seq<User>, newId: string): (r: SignedUp)
    ensures SignupRejection(body, users).Some? ==> r == SignedUp(SignupRejection(body, users).value, users)
    ensures SignupRejection(body, users).None? ==>
              var u := User(newId, body.name.value, body.email.value, hasher.hash(body.password.value));
              && r.users == users + [u]
              && r.response == Response(201, Success(Session(PublicUser(newId, body.name.value, body.email.value),
                                                             CreateToken(svc, u))))
  {
    match SignupRejection(body, users)
    case Some(response) => SignedUp(response, users)
    case None =>
      var u := User(newId, body.name.value, body.email.value, hasher.hash(body.password.value));
      SignedUp(SuccessResponse(Session(PublicOf(u), CreateToken(svc, u)), Some(201)), users + [u])
  }

  /** The exported signup route. With the store's calls assumed to succeed,
      the handler never throws, so the wrapper passes its response through. */
  function SignupRoute(svc: TokenService, hasher: Hasher, body: SignupBody, users: seq<User>, newId: string): (r: SignedUp)
    ensures r.response == Signup(svc, hasher, body, users, newId).response
    ensures r.users == Signup(svc, hasher, body, users, newId).users
  {
    var s := Signup(svc, hasher, body, users, newId);
    SignedUp(AsyncHandler(Returned(s.response)), s.users)
  }

  /** An email already in use is refused with 409 and the collection is
      left as it was. */
  lemma DuplicateEmailRefused(svc: TokenService, hasher: Hasher, body: SignupBody, users: seq<User>, newId: string)
    requires Truthy(body.name) && Truthy(body.email) && Truthy(body.password)
    requires body.confirmPassword == body.password && Utf16Length(body.password.value) >= MinPasswordLength
    requires exists u :: u in users && u.email == body.email.value
    ensures Signup(svc, hasher, body, users, newId) == SignedUp(Response(409, Failure(EmailInUseMessage)), users)
  {
  }

  /** The confirmation is checked before the length: a short password that
      does not match its confirmation is reported as a mismatch. */
  lemma MismatchBeforeLength(svc: TokenService, hasher: Hasher, users: seq<User>, newId: string)
    ensures Signup(svc, hasher, SignupBody(Some("n"), Some("e"), Some("short"), Some("other")), users, newId).response
              == Response(400, Failure(MismatchMessage))
  {
  }

  /** Signup keeps emails unique. */
  lemma SignupKeepsEmailsUnique(svc: TokenService, hasher: Hasher, body: SignupBody, users: seq<User>, newId: string)
    requires EmailsUnique(users)
    ensures EmailsUnique(Signup(svc, hasher, body, users, newId).users)
  {
    var after := Signup(svc, hasher, body, users, newId).users;
    if SignupRejection(body, users).None? {
      forall i, j | 0 <= i < j < |after| ensures after[i].email != after[j].email {
        if j == |users| {
          assert after[i] in users;
        }
      }
    }
  }

  /** The login request body. */
  datatype LoginBody = LoginBody(email: Option<string>, password: Option<string>)

  /** `POST /api/auth/login`: it only reads the user collection. */
  function Login(svc: TokenService, hasher: Hasher, body: LoginBody, users: seq<User>): (r: Response<Session>)
    ensures !Truthy(body.email) || !Truthy(body.password) ==> r == Response(400, Failure(LoginFieldsMessage))
    ensures Truthy(body.email) && Truthy(body.password) ==>
              var found := FindUser(users, HasEmail(body.email.value));
              && (found.None? || !hasher.matches(body.password.value, found.value.passwordDigest) ==>
                    r == Response(401, Failure(InvalidCredentialsMessage)))
              && (found.Some? && hasher.matches(body.password.value, found.value.passwordDigest) ==>
                    r == Response(200, Success(Session(PublicOf(found.value), CreateToken(svc, found.value)))))
  {
    if !Truthy(body.email) || !Truthy(body.password) then
      ErrorResponse(Plain(LoginFieldsMessage), Some(400))
    else
      match FindUser(users, HasEmail(body.email.value))
      case None => ErrorResponse(Plain(InvalidCredentialsMessage), Some(401))
      case Some(u) =>
        if !hasher.matches(body.password.value, u.passwordDigest) then
          ErrorResponse(Plain(InvalidCredentialsMessage), Some(401))
        else
          SuccessResponse(Session(PublicOf(u), CreateToken(svc, u)), None)
  }

  /** The exported login route; with the store's calls assumed to succeed,
      the handler never throws. */
  function LoginRoute(svc: TokenService, hasher: Hasher, body: LoginBody, users: seq<User>): (r: Response<Session>)
    ensures r == Login(svc, hasher, body, users)
  {
    AsyncHandler(Returned(Login(svc, hasher, body, users)))
  }

  /** An unknown email and a wrong password are indistinguishable to the
      caller. */
  lemma LoginFailuresUniform(svc: TokenService, hasher: Hasher, email: string, password: string,
                             users: seq<User>, u: User)
    requires email != "" && password != ""
    requires u in users && u.email == email && FindUser(users, HasEmail(email)) == Some(u)
    requires !hasher.matches(password, u.passwordDigest)
    ensures Login(svc, hasher, LoginBody(Some(email), Some(password)), users)
            == Login(svc, hasher, LoginBody(Some(email), Some(password)), [])
  {
  }

  /** With a sound hasher, the credentials an account was just created with
      log in to that account. */
  lemma SignupThenLogin(svc: TokenService, hasher: Hasher, body: SignupBody, users: seq<User>, newId: string)
    requires Sound(hasher)
    requires Signup(svc, hasher, body, users, newId).response.status == 201
    ensures var after := Signup(svc, hasher, body, users, newId).users;
            var u := User(newId, body.name.value, body.email.value, hasher.hash(body.password.value));
            Login(svc, hasher, LoginBody(body.email, body.password), after)
              == Response(200, Success(Session(PublicUser(newId, body.name.value, body.email.value), CreateToken(svc, u))))
  {
    var u := User(newId, body.name.value, body.email.value, hasher.hash(body.password.value));
    FoundAppended(users, u, HasEmail(u.email));
  }

  /** A lookup over the users with one appended finds the appended user
      when no earlier user satisfies the filter. */
  lemma {:induction false} FoundAppended(users: seq<User>, u: User, p: User -> bool)
    requires p(u) && forall v :: v in users ==> !p(v)
    ensures FindUser(users + [u], p) == Some(u)
  {
    if users != [] {
      assert (users + [u])[1..] == users[1..] + [u];
      FoundAppended(users[1..], u, p);
    }
  }

  /** `GET /api/auth/me`: authenticate, then look up the token's `userId`. */
  function Me(svc: TokenService, header: Option<string>, users: seq<User>): (r: Outcome<PublicUser>)
    ensures Authenticate(svc, header).Err? ==> r == Threw(Authenticate(svc, header).error)
    ensures Authenticate(svc, header).Ok? ==>
              var found := FindUser(users, HasId(Authenticate(svc, header).value.userId));
              && (found.None? ==> r == Threw(UserNotFoundMessage))
              && (found.Some? ==> r == Returned(Response(200, Success(PublicOf(found.value)))))
  {
    match Authenticate(svc, header)
    case Err(message) => Threw(message)
    case Ok(claims) =>
      match FindUser(users, HasId(claims.userId))
      case None => Threw(UserNotFoundMessage)
      case Some(u) => Returned(SuccessResponse(PublicOf(u), None))
  }

  /** The exported `/me` route: a missing token answers 401, a bad one 500,
      an unknown user 404, and a known one 200 with its public fields. */
  function MeRoute(svc: TokenService, header: Option<string>, users: seq<User>): (r: Response<PublicUser>)
    ensures !Truthy(TokenFromHeader(header)) ==> r == Response(401, Failure(RequiredMessage))
    ensures Truthy(TokenFromHeader(header)) && svc.jwt.verify(TokenFromHeader(header).value, svc.secret).None? ==>
              r == Response(500, Failure(InvalidTokenMessage))
    ensures Authenticate(svc, header).Ok? && FindUser(users, HasId(Authenticate(svc, header).value.userId)).None? ==>
              r == Response(404, Failure(UserNotFoundMessage))
    ensures Authenticate(svc, header).Ok? && FindUser(users, HasId(Authenticate(svc, header).value.userId)).Some? ==>
              r == Response(200, Success(PublicOf(FindUser(users, HasId(Authenticate(svc, header).value.userId)).value)))
  {
    RequiredIsUnauthorized();
    InvalidTokenIsServerError();
    UserNotFoundIsNotFound();
    AsyncHandler(Me(svc, header, users))
  }

  /** Every token the signer issues is a non-empty, space-free string, as
      a compact JWT is. */
  ghost predicate SpaceFreeTokens(jwt: Jwt) {
    forall c, k :: jwt.sign(c, k) != "" && ' ' !in jwt.sign(c, k)
  }

  /** The token a signup returns, sent back as a bearer token, identifies
      the new account to `/me`. */
  lemma SignupThenMe(svc: TokenService, hasher: Hasher, body: SignupBody, users: seq<User>, newId: string)
    requires RoundTrips(svc.jwt) && SpaceFreeTokens(svc.jwt)
    requires forall v :: v in users ==> v.id != newId
    requires Signup(svc, hasher, body, users, newId).response.status == 201
    ensures var s := Signup(svc, hasher, body, users, newId);
            MeRoute(svc, Some(BearerPrefix + s.response.body.data.token), s.users)
              == Response(200, Success(s.response.body.data.user))
  {
    var s := Signup(svc, hasher, body, users, newId);
    var u := User(newId, body.name.value, body.email.value, hasher.hash(body.password.value));
    var token := CreateToken(svc, u);
    BearerRoundTrip(token);
    TokenRoundTrip(svc, u);
    FoundAppended(users, u, HasId(u.id));
  }

}

=== FILE: common.dfy ===
/** Values shared by every part of the model: optional values (JavaScript's
    `undefined`/`null`), results that carry an error message (a thrown `Error`),
    JavaScript truthiness of strings, and `Array.prototype.filter`. */
module Common {

  /** `None` stands for a missing property, `undefined` or `null`. */
  datatype Option<+T> = None | Some(value: T)

  /** `Err` carries the message of a thrown `Error`. */
  datatype Result<+T> = Ok(value: T) | Err(error: string)

  /** A JavaScript string value is truthy exactly when it is present and non-empty. */
  predicate Truthy(s: Option<string>) {
    s.Some? && s.value != ""
  }

  /** `s || fallback` for an optional string. */
  function OrElse(s: Option<string>, fallback: string): (r: string)
    ensures Truthy(s) ==> r == s.value
    ensures !Truthy(s) ==> r == fallback
  {
    if s.Some? && s.value != "" then s.value else fallback
  }

  /** `s.filter(p)`: the elements that satisfy `p`, in their original order. */
  function Filter<T(!new)>(s: seq<T>, p: T -> bool): (r: seq<T>)
    ensures |r| <= |s|
    ensures forall x :: x in r <==> x in s && p(x)
    ensures forall i :: 0 <= i < |r| ==> p(r[i])
    ensures (forall i :: 0 <= i < |s| ==> p(s[i])) ==> r == s
    ensures (forall i :: 0 <= i < |s| ==> !p(s[i])) ==> r == []
  {
    if s == [] then []
    else if p(s[0]) then [s[0]] + Filter(s[1..], p)
    else Filter(s[1..], p)
  }

  /** Filtering distributes over concatenation: the kept elements of a list
      keep their relative order. */
  lemma {:induction false} FilterAppend<T(!new)>(a: seq<T>, b: seq<T>, p: T -> bool)
    ensures Filter(a + b, p) == Filter(a, p) + Filter(b, p)
  {
    if a == [] {
      assert a + b == b;
    } else {
      assert (a + b)[1..] == a[1..] + b;
      FilterAppend(a[1..], b, p);
    }
  }

  /** Filtering keeps every element that satisfies `p`, with its multiplicity,
      and drops every other one. */
  lemma {:induction false} FilterMultiset<T(!new)>(s: seq<T>, p: T -> bool)
    ensures forall x :: multiset(Filter(s, p))[x] == if p(x) then multiset(s)[x] else 0
  {
    if s != [] {
      FilterMultiset(s[1..], p);
      assert s == [s[0]] + s[1..];
    }
  }
}

=== FILE: completed_page.dfy ===
/** The completed-tasks page: it holds only completed tasks, sends edits
    that keep a task completed, drops a task that is reopened or deleted,
    and shows an error when the server refuses. The answers of the task
    service are parameters; the request each handler sends is part of the
    result. */
module CompletedPage {
  import opened Common
  import opened TaskModel
  import opened ApiClient

  datatype PageState = PageState(tasks: seq<Task>, error: Option<string>)

  /** The body of the full update the page sends. */
  datatype EditRequest = EditRequest(title: string, description: string, priority: Priority, status: Status)

  /** Which request a handler sent to the task service. */
  datatype Sent = ReopenSent(id: string) | EditSent(id: string, body: EditRequest) | DeleteSent(id: string) | NothingSent

  /** The part of an update answer the page reads: the stored task's
      `updatedAt`, when the answer carries one. */
  datatype UpdateReply = UpdateReply(updatedAt: Option<int>)

  const UpdateFailed := "Failed to update task"
  const DeleteFailed := "Failed to delete task"
  const NotFound := "Task not found"

  predicate AllCompleted(tasks: seq<Task>) {
    forall i :: 0 <= i < |tasks| ==> tasks[i].status == Completed
  }

  function NotId(id: string): Task -> bool {
    (t: Task) => t.id != id
  }

  /** `tasks.filter((task) => task.id !== id)`. */
  function RemoveId(tasks: seq<Task>, id: string): (r: seq<Task>)
    ensures forall t :: t in r <==> t in tasks && t.id != id
    ensures (forall i :: 0 <= i < |tasks| ==> tasks[i].id != id) ==> r == tasks
    ensures |r| <= |tasks|
  {
    Filter(tasks, NotId(id))
  }

  /** `tasks.find((task) => task.id === id)`: the first task with that id. */
  function Find(tasks: seq<Task>, id: string): (r: Option<Task>)
    ensures r.None? <==> forall i :: 0 <= i < |tasks| ==> tasks[i].id != id
    ensures r.Some? ==> r.value in tasks && r.value.id == id
  {
    if tasks == [] then None
    else if tasks[0].id == id then Some(tasks[0])
    else Find(tasks[1..], id)
  }

  /** The edited task as the page stores it: the patch spread over it,
      completed, stamped with `stamp`. */
  function Merged(t: Task, p: TaskPatch, stamp: int): (r: Task)
    ensures r.id == t.id && r.createdAt == t.createdAt
    ensures r.status == Completed && r.updatedAt == stamp
  {
    ApplyPatch(t, p).(status := Completed, updatedAt := stamp)
  }

  /** Every task with the id replaced by its merge; all others kept. */
  function MergeId(tasks: seq<Task>, id: string, p: TaskPatch, stamp: int): (r: seq<Task>)
    ensures |r| == |tasks|
    ensures forall i :: 0 <= i < |tasks| ==> r[i].id == tasks[i].id
    ensures forall i :: 0 <= i < |tasks| && tasks[i].id != id ==> r[i] == tasks[i]
    ensures forall i :: 0 <= i < |tasks| && tasks[i].id == id ==> r[i] == Merged(tasks[i], p, stamp)
  {
    seq(|tasks|, i requires 0 <= i < |tasks| => if tasks[i].id == id then Merged(tasks[i], p, stamp) else tasks[i])
  }

  /** The full update built from the patch and the task on the page: an
      empty title and a missing priority fall back to the task's, a
      description is taken whenever it is present (even empty), and the
      status is always completed. */
  function EditBody(current: Task, p: TaskPatch): (b: EditRequest)
    ensures b.title == OrElse(p.title, current.title)
    ensures b.description == if p.description.Some? then p.description.value else current.description
    ensures b.priority == if p.priority.Some? then p.priority.value else current.priority
    ensures b.status == Completed
  {
    EditRequest(OrElse(p.title, current.title),
                if p.description.Some? then p.description.value else current.description,
                if p.priority.Some? then p.priority.value else current.priority,
                Completed)
  }

  /** `handleUpdateTask(id, patch)`, with `reply` the service's answer to
      whatever request was sent and `now` the clock. */
  function HandleUpdate(s: PageState, id: string, p: TaskPatch, reply: ApiResult<UpdateReply>, now: int): (r: (PageState, Sent))
    ensures p.status == Some(Pending) ==> r.1 == ReopenSent(id)
    ensures p.status == Some(Pending) && reply.Succeeded? ==> r.0 == s.(tasks := RemoveId(s.tasks, id))
    ensures p.status == Some(Pending) && reply.Failed? ==> r.0 == s.(error := Some(OrElse(Some(reply.error), UpdateFailed)))
    ensures p.status != Some(Pending) && Find(s.tasks, id).None? ==> r == (s.(error := Some(NotFound)), NothingSent)
    ensures p.status != Some(Pending) && Find(s.tasks, id).Some? ==> r.1 == EditSent(id, EditBody(Find(s.tasks, id).value, p))
    ensures r.1.EditSent? && !(reply.Succeeded? && reply.data.Some?) ==> r.0.tasks == s.tasks
    ensures r.1.EditSent? && !(reply.Succeeded? && reply.data.Some?) ==>
      r.0 == s.(error := Some(OrElse(if reply.Failed? then Some(reply.error) else None, UpdateFailed)))
    ensures r.1.EditSent? && reply.Succeeded? && reply.data.Some? ==>
      r.0 == s.(tasks := MergeId(s.tasks, id, p, StampOrNow(reply.data.value.updatedAt, now)))
  {
    if p.status == Some(Pending) then
      var s' := if reply.Succeeded? then s.(tasks := RemoveId(s.tasks, id))
                else s.(error := Some(OrElse(Some(reply.error), UpdateFailed)));
      (s', ReopenSent(id))
    else
      var current := Find(s.tasks, id);
      if current.None? then (s.(error := Some(NotFound)), NothingSent)
      else
        var sent := EditSent(id, EditBody(current.value, p));
        if reply.Succeeded? && reply.data.Some? then
          (s.(tasks := MergeId(s.tasks, id, p, StampOrNow(reply.data.value.updatedAt, now))), sent)
        else
          (s.(error := Some(OrElse(if reply.Failed? then Some(reply.error) else None, UpdateFailed))), sent)
  }

  /** The `updatedAt` of the task in the answer when it carries one, else
      `new Date()`: the clock reading `now`. */
  function StampOrNow(v: Option<int>, fallback: int): (r: int)
    ensures v.Some? ==> r == v.value
    ensures v.None? ==> r == fallback
  {
    if v.Some? then v.value else fallback
  }

  /** `handleDeleteTask(id)`: the task goes when the service deletes it. */
  function HandleDelete(s: PageState, id: string, reply: ApiResult<UpdateReply>): (r: (PageState, Sent))
    ensures r.1 == DeleteSent(id)
    ensures reply.Succeeded? ==> r.0 == s.(tasks := RemoveId(s.tasks, id))
    ensures reply.Failed? ==> r.0 == s.(error := Some(OrElse(Some(reply.error), DeleteFailed)))
  {
    if reply.Succeeded? then (s.(tasks := RemoveId(s.tasks, id)), DeleteSent(id))
    else (s.(error := Some(OrElse(Some(reply.error), DeleteFailed))), DeleteSent(id))
  }

  /** The page never holds a task that is not completed: updating and
      deleting keep that true, whatever the patch and the answers. */
  lemma HandlersKeepAllCompleted(s: PageState, id: string, p: TaskPatch, reply: ApiResult<UpdateReply>, now: int)
    requires AllCompleted(s.tasks)
    ensures AllCompleted(HandleUpdate(s, id, p, reply, now).0.tasks)
    ensures AllCompleted(HandleDelete(s, id, reply).0.tasks)
  {
    var r := RemoveId(s.tasks, id);
    forall i | 0 <= i < |r|
      ensures r[i].status == Completed
    {
      assert r[i] in s.tasks;
    }
  }

  /** A successful reopen or delete takes away exactly the tasks with that
      id: no other task is lost, and none with that id is left. */
  lemma RemovalIsExact(s: PageState, id: string, reply: ApiResult<UpdateReply>)
    requires reply.Succeeded?
    ensures var t := HandleDelete(s, id, reply).0.tasks;
      forall x :: x in t <==> x in s.tasks && x.id != id
    ensures var t := HandleUpdate(s, id, EmptyPatch.(status := Some(Pending)), reply, 0).0.tasks;
      forall x :: x in t <==> x in s.tasks && x.id != id
  {
  }

  /** Setting the status back to pending sends only the status: whatever
      else the dialog changed is not sent. */
  lemma ReopenDropsOtherEdits(s: PageState, id: string, p: TaskPatch, reply: ApiResult<UpdateReply>, now: int)
    requires p.status == Some(Pending)
    ensures HandleUpdate(s, id, p, reply, now).1 == ReopenSent(id)
    ensures HandleUpdate(s, id, p, reply, now).0.tasks == HandleUpdate(s, id, EmptyPatch.(status := Some(Pending)), reply, now).0.tasks
  {
  }

  /** An edit of a task that is on the page and accepted by the service
      stores the edited fields the patch sets, and the service's timestamp. */
  lemma AcceptedEditStored(s: PageState, t: Task, p: TaskPatch, u: int, now: int)
    requires t in s.tasks && p.status != Some(Pending)
    ensures var r := HandleUpdate(s, t.id, p, Succeeded(Some(UpdateReply(Some(u)))), now).0.tasks;
      && |r| == |s.tasks|
      && Merged(t, p, u) in r
      && Merged(t, p, u).updatedAt == u
  {
    var i :| 0 <= i < |s.tasks| && s.tasks[i] == t;
    var r := HandleUpdate(s, t.id, p, Succeeded(Some(UpdateReply(Some(u)))), now).0.tasks;
    assert r[i] == Merged(t, p, u);
  }

  /** Removal keeps the relative order of what is left: removing from a
      list split in two is removing from each part. */
  lemma RemovalKeepsOrder(a: seq<Task>, b: seq<Task>, id: string)
    ensures RemoveId(a + b, id) == RemoveId(a, id) + RemoveId(b, id)
  {
    FilterAppend(a, b, NotId(id));
  }
}

=== FILE: dashboard.dfy ===
/** The dashboard's own task handling, which keeps its list in the browser
    without calling the server: a created task gets an id made from the
    clock and the signed-in user's id, an edit spreads the changed
    properties over the task, and a delete filters it out. The clock and
    the session are parameters. */
module Dashboard {
  import opened Common
  import opened Text
  import opened TaskModel
  import opened TaskForm

  /** A dashboard task: the task and the `userId` property the dashboard
      records beside it. */
  datatype Entry = Entry(userId: string, task: Task)

  const IdPrefix := "task-"
  const FallbackUserId := "1"

  /** The id a task created at clock reading `now` (milliseconds) gets. */
  function NewId(now: nat): (id: string)
    ensures StartsWith(id, IdPrefix)
    ensures id[|IdPrefix|..] == Decimal(now)
  {
    IdPrefix + Decimal(now)
  }

  /** Tasks created at different instants get different ids. */
  lemma NewIdInjective(m: nat, n: nat)
    requires m != n
    ensures NewId(m) != NewId(n)
  {
    DecimalInjective(m, n);
    assert NewId(m)[|IdPrefix|..] == Decimal(m);
  }

  /** `handleCreateTask`: the new task goes at the end; its id comes from
      the clock, its user id from the session (or "1" without one), its
      fields from the submitted form, and both dates are `now`. */
  function Create(entries: seq<Entry>, sessionUserId: Option<string>, sub: Submission, now: nat): (r: seq<Entry>)
    ensures |r| == |entries| + 1 && r[..|entries|] == entries
    ensures r[|entries|].userId == OrElse(sessionUserId, FallbackUserId)
    ensures r[|entries|].task == Task(NewId(now), sub.title, sub.description, sub.priority, sub.status, sub.user, now, now)
  {
    entries + [Entry(OrElse(sessionUserId, FallbackUserId),
                     Task(NewId(now), sub.title, sub.description, sub.priority, sub.status, sub.user, now, now))]
  }

  /** `handleUpdateTask`: every entry with the id gets the patch and the
      new `updatedAt`; every other entry is kept. */
  function Update(entries: seq<Entry>, id: string, p: TaskPatch, now: int): (r: seq<Entry>)
    ensures |r| == |entries|
    ensures forall i :: 0 <= i < |entries| ==> r[i].userId == entries[i].userId && r[i].task.id == entries[i].task.id
    ensures forall i :: 0 <= i < |entries| && entries[i].task.id != id ==> r[i] == entries[i]
    ensures forall i :: 0 <= i < |entries| && entries[i].task.id == id ==>
      r[i].task == ApplyPatch(entries[i].task, p).(updatedAt := now)
  {
    seq(|entries|, i requires 0 <= i < |entries| =>
      if entries[i].task.id == id then entries[i].(task := ApplyPatch(entries[i].task, p).(updatedAt := now))
      else entries[i])
  }

  function NotId(id: string): Entry -> bool {
    (e: Entry) => e.task.id != id
  }

  /** `handleDeleteTask`: the entries without the id, in their order. */
  function Delete(entries: seq<Entry>, id: string): (r: seq<Entry>)
    ensures forall e :: e in r <==> e in entries && e.task.id != id
    ensures (forall i :: 0 <= i < |entries| ==> entries[i].task.id != id) ==> r == entries
  {
    Filter(entries, NotId(id))
  }

  predicate HasId(entries: seq<Entry>, id: string) {
    exists i :: 0 <= i < |entries| && entries[i].task.id == id
  }

  /** Deleting the task just created restores the list, provided no earlier
      task carried the same clock-made id. */
  lemma CreateThenDelete(entries: seq<Entry>, sessionUserId: Option<string>, sub: Submission, now: nat)
    requires !HasId(entries, NewId(now))
    ensures Delete(Create(entries, sessionUserId, sub, now), NewId(now)) == entries
  {
    var added := Create(entries, sessionUserId, sub, now)[|entries|..];
    assert Create(entries, sessionUserId, sub, now) == entries + added;
    FilterAppend(entries, added, NotId(NewId(now)));
    assert Filter(added, NotId(NewId(now))) == [];
  }

  /** An update or delete naming an id no task has changes nothing. */
  lemma AbsentIdUnchanged(entries: seq<Entry>, id: string, p: TaskPatch, now: int)
    requires !HasId(entries, id)
    ensures Update(entries, id, p, now) == entries
    ensures Delete(entries, id) == entries
  {
  }

  /** Editing from the form, which submits an empty `user`, clears the
      owner of the edited task and keeps its creation time. */
  lemma FormEditClearsOwner(entries: seq<Entry>, id: string, sub: Submission, now: int, i: nat)
    requires sub.user == "" && i < |entries| && entries[i].task.id == id
    ensures Update(entries, id, AsPatch(sub), now)[i].task.owner == ""
    ensures Update(entries, id, AsPatch(sub), now)[i].task.createdAt == entries[i].task.createdAt
  {
  }

  /** Deleting keeps the relative order of what is left: deleting from a
      list split in two is deleting from each part. */
  lemma DeleteKeepsOrder(a: seq<Entry>, b: seq<Entry>, id: string)
    ensures Delete(a + b, id) == Delete(a, id) + Delete(b, id)
  {
    FilterAppend(a, b, NotId(id));
  }
}

=== FILE: end_to_end.dfy ===
/** Properties that span the browser and the server: the bearer header the
    client builds is the one the server parses, and the envelope the server
    sends is the one the client unwraps. */
module EndToEnd {
  import opened Common
  import opened Auth
  import opened ApiMiddleware
  import opened ApiClient
  import TaskModel
  import TasksRoute
  import FetchedTasks
  import CompletedPage

  /** What the client receives for a server response: `ok` is a 2xx status,
      and the envelope's `data` or `error` property is set. */
  function Wire<T>(r: Response<T>): Transport<T> {
    Received(200 <= r.status < 300, match r.body
      case Success(data) => WireBody(Some(data), None)
      case Failure(error) => WireBody(None, Some(error)))
  }

  /** A success envelope reaches the client as its data. */
  lemma SuccessRoundTrip<T>(data: T, status: Option<int>)
    requires status.None? || 200 <= status.value < 300
    ensures Unwrap(Wire(SuccessResponse(data, status))) == Succeeded(Some(data))
  {
  }

  /** An error envelope with a non-2xx status reaches the client as its
      message; an empty message becomes the client's fallback. */
  lemma ErrorRoundTrip<T>(error: ErrorValue, status: Option<int>)
    requires status.None? || !(200 <= status.value < 300)
    ensures var m := match error case ErrorObject(m) => m case Plain(s) => s;
            Unwrap(Wire(ErrorResponse<T>(error, status))) == Failed(if m != "" then m else FallbackError)
  {
  }

  /** The header the client builds for a stored token is parsed back to
      that token by the server, provided the token has no space. */
  lemma ClientHeaderParsed<T>(endpoint: string, verb: string, token: string, data: Option<T>)
    requires token != "" && ' ' !in token
    ensures TokenFromHeader(BuildRequest(endpoint, verb, Some(token), data).authorization) == Some(token)
  {
    BearerRoundTrip(token);
  }

  /** A token issued for a user and sent by the client authenticates as
      exactly that user. */
  lemma ClientSessionAuthenticates<T>(svc: TokenService, u: User, endpoint: string, verb: string, data: Option<T>)
    requires RoundTrips(svc.jwt)
    requires CreateToken(svc, u) != "" && ' ' !in CreateToken(svc, u)
    ensures Authenticate(svc, BuildRequest(endpoint, verb, Some(CreateToken(svc, u)), data).authorization)
              == Ok(Claims(u.id, u.name, u.email))
  {
    ClientHeaderParsed(endpoint, verb, CreateToken(svc, u), data);
    TokenRoundTrip(svc, u);
  }

  /** The network when it delivers every request to the task listing route. */
  function ListingServer(svc: TokenService, params: TasksRoute.ListParams, store: seq<TaskModel.Task>)
    : Request<seq<TaskModel.Task>> -> Transport<seq<TaskModel.Task>>
  {
    (req: Request<seq<TaskModel.Task>>) => Wire(TasksRoute.GetRoute(svc, req.verb, req.authorization, params, store))
  }

  /** Without a stored token the client's listing request fails with the
      server's "Authentication required"; with a token issued for a user it
      succeeds with exactly that user's listing. */
  lemma ListingThroughClient(svc: TokenService, token: Option<string>, params: TasksRoute.ListParams,
                             store: seq<TaskModel.Task>, u: User)
    ensures !Truthy(token) ==>
              ApiRequest("/tasks", "GET", token, None, ListingServer(svc, params, store)) == Failed(RequiredMessage)
    ensures && token == Some(CreateToken(svc, u)) && RoundTrips(svc.jwt)
            && CreateToken(svc, u) != "" && ' ' !in CreateToken(svc, u) ==>
              ApiRequest("/tasks", "GET", token, None, ListingServer(svc, params, store))
                == Succeeded(Some(TasksRoute.ListTasks(store, u.id, params)))
  {
    if token == Some(CreateToken(svc, u)) && RoundTrips(svc.jwt) && CreateToken(svc, u) != "" && ' ' !in CreateToken(svc, u) {
      ClientSessionAuthenticates<seq<TaskModel.Task>>(svc, u, "/tasks", "GET", None);
    }
  }

  /** The completed-tasks page asks the server for completed tasks only, so
      the list it loads is the listing itself and holds nothing but
      completed tasks: the page's invariant holds from the start. */
  lemma CompletedPageStartsCompleted(store: seq<TaskModel.Task>, userId: string, now: int)
    ensures var listing := TasksRoute.ListTasks(store, userId, TasksRoute.ListParams(Some("completed"), None, None));
      var wire := seq(|listing|, i requires 0 <= i < |listing| => FetchedTasks.ToWire(listing[i]));
      var loaded := FetchedTasks.Load(Succeeded(Some(wire)), now, FetchedTasks.CompletedLoadError);
      && loaded == FetchedTasks.Loaded(listing)
      && CompletedPage.AllCompleted(loaded.tasks)
  {
    var params := TasksRoute.ListParams(Some("completed"), None, None);
    var listing := TasksRoute.ListTasks(store, userId, params);
    FetchedTasks.FormatInvertsWire(listing, now);
    assert TasksRoute.BuildQuery(userId, params).status == Some("completed");
    forall i | 0 <= i < |listing|
      ensures listing[i].status == TaskModel.Completed
    {
      assert listing[i] in listing;
      assert TaskModel.StatusName(listing[i].status) == "completed";
    }
  }
}

=== FILE: fetched_tasks.dfy ===
/** How the analytics and completed-tasks pages turn the `tasks` array of a
    listing answer into the tasks they hold: dates parsed (or "now" when
    missing) and an `id` guaranteed, taken from `id` or else from the
    database `_id`. The clock is a parameter. */
module FetchedTasks {
  import opened Common
  import opened TaskModel
  import opened ApiClient

  /** A task as the JSON answer carries it. `objectId` is the string form of
      `_id`; a missing date is `None`. */
  datatype WireTask = WireTask(
    id: Option<string>,
    objectId: Option<string>,
    title: string,
    description: string,
    priority: Priority,
    status: Status,
    owner: string,
    createdAt: Option<int>,
    updatedAt: Option<int>)

  /** `task.id || (task._id ? task._id.toString() : "")`. */
  function NormalizeId(id: Option<string>, objectId: Option<string>): (r: string)
    ensures Truthy(id) ==> r == id.value
    ensures !Truthy(id) && objectId.Some? ==> r == objectId.value
    ensures !Truthy(id) && objectId.None? ==> r == ""
  {
    OrElse(id, if objectId.Some? then objectId.value else "")
  }

  /** One task, formatted at time `now`. */
  function FormatTask(w: WireTask, now: int): (t: Task)
    ensures t.id == NormalizeId(w.id, w.objectId)
    ensures t.title == w.title && t.description == w.description && t.owner == w.owner
    ensures t.priority == w.priority && t.status == w.status
    ensures t.createdAt == if w.createdAt.Some? then w.createdAt.value else now
    ensures t.updatedAt == if w.updatedAt.Some? then w.updatedAt.value else now
  {
    Task(NormalizeId(w.id, w.objectId), w.title, w.description, w.priority, w.status, w.owner,
         if w.createdAt.Some? then w.createdAt.value else now,
         if w.updatedAt.Some? then w.updatedAt.value else now)
  }

  /** The whole array, formatted element by element in order. */
  function FormatTasks(ws: seq<WireTask>, now: int): (ts: seq<Task>)
    ensures |ts| == |ws|
    ensures forall i :: 0 <= i < |ws| ==> ts[i] == FormatTask(ws[i], now)
  {
    seq(|ws|, i requires 0 <= i < |ws| => FormatTask(ws[i], now))
  }

  /** How the server serialises a stored task: no `id` property, its
      identifier under `_id`, both dates present. */
  function ToWire(t: Task): WireTask {
    WireTask(None, Some(t.id), t.title, t.description, t.priority, t.status, t.owner,
             Some(t.createdAt), Some(t.updatedAt))
  }

  /** Formatting what the server sends gives back the stored tasks, whatever
      the clock says. */
  lemma FormatInvertsWire(ts: seq<Task>, now: int)
    ensures FormatTasks(seq(|ts|, i requires 0 <= i < |ts| => ToWire(ts[i])), now) == ts
  {
    var ws := seq(|ts|, i requires 0 <= i < |ts| => ToWire(ts[i]));
    forall i | 0 <= i < |ts|
      ensures FormatTasks(ws, now)[i] == ts[i]
    {
      assert ws[i] == ToWire(ts[i]);
    }
  }

  /** What a page's load ends with: the tasks, or the error it shows. */
  datatype Loaded = Loaded(tasks: seq<Task>) | LoadFailed(error: string)

  /** A successful answer with data is formatted; anything else shows the
      answer's error, or the page's `fallback` message when that is empty. */
  function Load(response: ApiResult<seq<WireTask>>, now: int, fallback: string): (r: Loaded)
    ensures r.Loaded? <==> response.Succeeded? && response.data.Some?
    ensures r.Loaded? ==> r.tasks == FormatTasks(response.data.value, now)
    ensures response.Failed? ==> r == LoadFailed(if response.error != "" then response.error else fallback)
    ensures response.Succeeded? && response.data.None? ==> r == LoadFailed(fallback)
  {
    match response
    case Succeeded(data) =>
      if data.Some? then Loaded(FormatTasks(data.value, now)) else LoadFailed(fallback)
    case Failed(error) => LoadFailed(OrElse(Some(error), fallback))
  }

  const AnalyticsLoadError := "Failed to load tasks"
  const CompletedLoadError := "Failed to load completed tasks"
}

=== FILE: sidebar.dfy ===
/** The navigation sidebar: its four links and which of them is
    highlighted for the current path. */
module Sidebar {
  import opened Common
  import opened Text

  const Dashboard := "/dashboard"

  /** The hrefs of the links "Dashboard", "My Tasks", "Completed" and
      "Analytics", in the order they are listed. */
  const NavHrefs := [Dashboard, "/tasks", "/tasks/completed", "/analytics"]

  /** Whether the link to `href` is highlighted when the router reports
      `pathname` (`None` before a path is known): on its own page, and, for
      every link but the dashboard, on any path that begins with its href. */
  function IsActive(pathname: Option<string>, href: string): (b: bool)
    ensures b ==> pathname.Some? && StartsWith(pathname.value, href)
    ensures pathname == Some(href) ==> b
    ensures href == Dashboard ==> (b <==> pathname == Some(href))
    ensures href != Dashboard && pathname.Some? && StartsWith(pathname.value, href) ==> b
  {
    (pathname.Some? && pathname.value == href)
    || (href != Dashboard && pathname.Some? && StartsWith(pathname.value, href))
  }

  function Highlights(pathname: Option<string>): string -> bool {
    (href: string) => IsActive(pathname, href)
  }

  /** The hrefs of the highlighted links, in list order. */
  function ActiveHrefs(pathname: Option<string>): (hrefs: seq<string>)
    ensures forall h :: h in hrefs <==> h in NavHrefs && IsActive(pathname, h)
  {
    Filter(NavHrefs, Highlights(pathname))
  }

  /** Before the path is known nothing is highlighted. */
  lemma NoPathNoHighlight(href: string)
    ensures !IsActive(None, href)
    ensures ActiveHrefs(None) == []
  {
  }

  /** Each link is highlighted on its own page. */
  lemma OwnPageHighlighted()
    ensures forall h :: h in NavHrefs ==> IsActive(Some(h), h) && h in ActiveHrefs(Some(h))
  {
  }

  /** A path below the dashboard does not highlight the dashboard link. */
  lemma DashboardExactOnly(rest: string)
    requires rest != ""
    ensures !IsActive(Some(Dashboard + rest), Dashboard)
  {
    assert |Dashboard + rest| > |Dashboard|;
  }

  /** The completed-tasks page highlights both "My Tasks" and "Completed". */
  lemma CompletedPageHighlightsBoth()
    ensures IsActive(Some("/tasks/completed"), "/tasks")
    ensures IsActive(Some("/tasks/completed"), "/tasks/completed")
    ensures !IsActive(Some("/tasks/completed"), Dashboard)
    ensures !IsActive(Some("/tasks/completed"), "/analytics")
  {
    assert "/tasks/completed"[..6] == "/tasks";
    assert "/tasks/completed"[1] != "/analytics"[1];
  }

  /** The prefix test does not look for a path separator: any path that
      merely begins with "/tasks" highlights "My Tasks". */
  lemma PrefixIsNotSegment(rest: string)
    ensures IsActive(Some("/tasks" + rest), "/tasks")
  {
    assert ("/tasks" + rest)[..6] == "/tasks";
  }
}

=== FILE: sorting.dfy ===
/** The orders tasks are listed in, and the sort that produces them.

    Both the server's in-memory priority re-sort and the client list sort
    hand `Array.prototype.sort` a comparator of the form `key(a) - key(b)`
    (or its negation). That sort is stable, so the result is the stable
    ascending sort by the key: the sort below is a stable insertion sort,
    and its contract states that its result is a permutation of the input,
    ordered by the key, with equal-key tasks in their input order. The
    store's native `createdAt` ordering is modelled by the same sort. */
module Sorting {
  import opened TaskModel

  /** `createdAt_desc`, `createdAt_asc`, `priority_high`, `priority_low`. */
  datatype Order = NewestFirst | OldestFirst | HighestPriorityFirst | LowestPriorityFirst

  /** The number an order sorts ascending by: the comparators subtract
      creation times or ranks, in one direction or the other. */
  function Key(o: Order, t: Task): int {
    match o
    case NewestFirst => -t.createdAt
    case OldestFirst => t.createdAt
    case HighestPriorityFirst => Rank(t.priority)
    case LowestPriorityFirst => -(Rank(t.priority) as int)
  }

  predicate Sorted(o: Order, s: seq<Task>) {
    forall i, j :: 0 <= i < j < |s| ==> Key(o, s[i]) <= Key(o, s[j])
  }

  /** The tasks of `s` whose key is `k`, in their order in `s`. */
  function WithKey(o: Order, s: seq<Task>, k: int): seq<Task> {
    if s == [] then []
    else if Key(o, s[0]) == k then [s[0]] + WithKey(o, s[1..], k)
    else WithKey(o, s[1..], k)
  }

  /** Inserts `x` into a sorted list, in front of every task whose key is not
      smaller than its own. */
  function Insert(o: Order, x: Task, s: seq<Task>): (r: seq<Task>)
    ensures |r| == |s| + 1
    ensures multiset(r) == multiset(s) + multiset{x}
    ensures Sorted(o, s) ==> Sorted(o, r)
  {
    if s == [] then [x]
    else if Key(o, x) <= Key(o, s[0]) then
      [x] + s
    else
      var tail := Insert(o, x, s[1..]);
      InsertBehind(o, x, s, tail);
      [s[0]] + tail
  }

  /** The step of `Insert` that keeps the head in front. */
  lemma InsertBehind(o: Order, x: Task, s: seq<Task>, tail: seq<Task>)
    requires s != [] && Key(o, s[0]) < Key(o, x)
    requires multiset(tail) == multiset(s[1..]) + multiset{x}
    requires Sorted(o, s[1..]) ==> Sorted(o, tail)
    ensures multiset([s[0]] + tail) == multiset(s) + multiset{x}
    ensures Sorted(o, s) ==> Sorted(o, [s[0]] + tail)
  {
    assert s == [s[0]] + s[1..];
    if Sorted(o, s) {
      var k := Key(o, s[0]);
      forall i | 0 <= i < |tail| ensures k <= Key(o, tail[i]) {
        assert tail[i] in multiset(tail);
        if tail[i] != x {
          assert tail[i] in multiset(s[1..]);
          var j :| 0 <= j < |s[1..]| && s[1..][j] == tail[i];
          assert s[j + 1] == tail[i];
        }
      }
      var r := [s[0]] + tail;
      forall i, j | 0 <= i < j < |r| ensures Key(o, r[i]) <= Key(o, r[j]) {
        if i > 0 {
          assert r[i] == tail[i - 1] && r[j] == tail[j - 1];
        }
      }
    }
  }

  /** Insertion is stable: among the tasks with `x`'s key, `x` comes first,
      and the tasks with any other key keep their order. */
  lemma {:induction false} InsertWithKey(o: Order, x: Task, s: seq<Task>, k: int)
    requires Sorted(o, s)
    ensures WithKey(o, Insert(o, x, s), k) == if Key(o, x) == k then [x] + WithKey(o, s, k) else WithKey(o, s, k)
  {
    if s == [] {
    } else if Key(o, x) <= Key(o, s[0]) {
      assert ([x] + s)[1..] == s;
    } else {
      InsertWithKey(o, x, s[1..], k);
      var tail := Insert(o, x, s[1..]);
      assert Insert(o, x, s) == [s[0]] + tail;
      assert ([s[0]] + tail)[1..] == tail;
    }
  }

  lemma InsertWithEveryKey(o: Order, x: Task, s: seq<Task>)
    requires Sorted(o, s)
    ensures forall k :: WithKey(o, Insert(o, x, s), k) == if Key(o, x) == k then [x] + WithKey(o, s, k) else WithKey(o, s, k)
  {
    forall k {
      InsertWithKey(o, x, s, k);
    }
  }

  /** The stable sort of `s` by the order's key. */
  function SortBy(o: Order, s: seq<Task>): (r: seq<Task>)
    ensures |r| == |s|
    ensures multiset(r) == multiset(s)
    ensures Sorted(o, r)
    ensures forall k :: WithKey(o, r, k) == WithKey(o, s, k)
  {
    if s == [] then []
    else
      var rest := SortBy(o, s[1..]);
      assert s == [s[0]] + s[1..];
      InsertWithEveryKey(o, s[0], rest);
      Insert(o, s[0], rest)
  }

  /** Sorting a list that is already in order changes nothing. */
  lemma {:induction false} SortSorted(o: Order, s: seq<Task>)
    requires Sorted(o, s)
    ensures SortBy(o, s) == s
  {
    if s != [] {
      SortSorted(o, s[1..]);
      InsertInFront(o, s);
    }
  }

  /** The head of a sorted list is inserted in front of its tail. */
  lemma InsertInFront(o: Order, s: seq<Task>)
    requires s != [] && Sorted(o, s)
    ensures Insert(o, s[0], s[1..]) == s
  {
    assert s == [s[0]] + s[1..];
    if |s| > 1 {
      assert Key(o, s[0]) <= Key(o, s[1..][0]);
    }
  }

  /** The ranks of a list of tasks. */
  function Ranks(s: seq<Task>): (r: seq<int>)
    ensures |r| == |s|
  {
    seq(|s|, i requires 0 <= i < |s| => Rank(s[i].priority))
  }

  predicate NonDecreasing(a: seq<int>) {
    forall i, j :: 0 <= i < j < |a| ==> a[i] <= a[j]
  }

  function Reverse(a: seq<int>): (r: seq<int>)
    ensures |r| == |a|
    ensures forall i :: 0 <= i < |a| ==> r[i] == a[|a| - 1 - i]
    ensures multiset(r) == multiset(a)
  {
    if a == [] then []
    else
      assert a == [a[0]] + a[1..];
      Reverse(a[1..]) + [a[0]]
  }

  lemma RanksAppend(a: seq<Task>, b: seq<Task>)
    ensures Ranks(a + b) == Ranks(a) + Ranks(b)
  {
    assert forall i :: 0 <= i < |a + b| ==> Ranks(a + b)[i] == (Ranks(a) + Ranks(b))[i];
  }

  /** Permuting tasks permutes their ranks. */
  lemma {:induction false} PermutedRanks(s: seq<Task>, t: seq<Task>)
    requires multiset(s) == multiset(t)
    ensures multiset(Ranks(s)) == multiset(Ranks(t))
  {
    if s == [] {
      assert |multiset(t)| == 0;
    } else {
      var x := s[0];
      assert x in multiset(t);
      var j :| 0 <= j < |t| && t[j] == x;
      var rest := t[..j] + t[j + 1..];
      assert t == t[..j] + [x] + t[j + 1..];
      assert s == [x] + s[1..];
      assert multiset(t) == multiset(t[..j]) + multiset{x} + multiset(t[j + 1..]);
      assert multiset(rest) == multiset(t[..j]) + multiset(t[j + 1..]);
      assert multiset(s) == multiset{x} + multiset(s[1..]);
      assert multiset(s[1..]) == multiset(s) - multiset{x};
      assert multiset(rest) == multiset(t) - multiset{x};
      PermutedRanks(s[1..], rest);
      RanksAppend(t[..j] + [x], t[j + 1..]);
      RanksAppend(t[..j], [x]);
      RanksAppend(t[..j], t[j + 1..]);
      RanksAppend([x], s[1..]);
    }
  }

  /** Sorting permutes the ranks along with the tasks. */
  lemma RanksOfSort(o: Order, s: seq<Task>)
    ensures multiset(Ranks(SortBy(o, s))) == multiset(Ranks(s))
  {
    PermutedRanks(SortBy(o, s), s);
  }

  /** The head of a non-decreasing list is its least element. */
  lemma HeadIsLeast(a: seq<int>)
    requires NonDecreasing(a) && a != []
    ensures forall x :: x in multiset(a) ==> a[0] <= x
  {
    forall x | x in multiset(a) ensures a[0] <= x {
      assert x in a;
    }
  }

  /** Two ordered permutations of each other start alike and continue
      with permutations of each other. */
  lemma SameHead(a: seq<int>, b: seq<int>)
    requires NonDecreasing(a) && NonDecreasing(b)
    requires multiset(a) == multiset(b) && a != []
    ensures b != [] && a[0] == b[0]
    ensures multiset(a[1..]) == multiset(b[1..])
  {
    assert a[0] in multiset(a);
    assert b != [] by {
      assert a[0] in multiset(b);
    }
    HeadIsLeast(a);
    HeadIsLeast(b);
    assert b[0] in multiset(b);
    TailMultiset(a);
    TailMultiset(b);
  }

  lemma TailMultiset(a: seq<int>)
    requires a != []
    ensures multiset(a[1..]) == multiset(a) - multiset{a[0]}
  {
    assert a == [a[0]] + a[1..];
  }

  /** Two ordered lists of numbers with the same elements are equal. */
  lemma {:induction false} OrderedPermutationsEqual(a: seq<int>, b: seq<int>)
    requires NonDecreasing(a) && NonDecreasing(b)
    requires multiset(a) == multiset(b)
    ensures a == b
  {
    if a == [] {
      assert |multiset(b)| == |b|;
    } else {
      SameHead(a, b);
      OrderedPermutationsEqual(a[1..], b[1..]);
      assert a == [a[0]] + a[1..];
      assert b == [b[0]] + b[1..];
    }
  }

  /** Ascending priority keys are non-decreasing ranks. */
  lemma HighestFirstRanks(a: seq<Task>)
    requires Sorted(HighestPriorityFirst, a)
    ensures NonDecreasing(Ranks(a))
  {
  }

  /** Descending ranks, read backwards, are non-decreasing. */
  lemma LowestFirstRanksReversed(b: seq<Task>)
    requires Sorted(LowestPriorityFirst, b)
    ensures NonDecreasing(Reverse(Ranks(b)))
  {
    var down := Reverse(Ranks(b));
    forall i, j | 0 <= i < j < |down| ensures down[i] <= down[j] {
      assert Key(LowestPriorityFirst, b[|b| - 1 - j]) <= Key(LowestPriorityFirst, b[|b| - 1 - i]);
    }
  }

  /** The two priority sorts of the same tasks list the ranks in exactly
      opposite orders. */
  lemma PriorityOrdersAreReverses(s: seq<Task>)
    ensures Ranks(SortBy(HighestPriorityFirst, s)) == Reverse(Ranks(SortBy(LowestPriorityFirst, s)))
  {
    var a := SortBy(HighestPriorityFirst, s);
    var b := SortBy(LowestPriorityFirst, s);
    RanksOfSort(HighestPriorityFirst, s);
    RanksOfSort(LowestPriorityFirst, s);
    HighestFirstRanks(a);
    LowestFirstRanksReversed(b);
    OrderedPermutationsEqual(Ranks(a), Reverse(Ranks(b)));
  }
}

=== FILE: task_form.dfy ===
/** The task form used both to create and to edit a task: its initial
    values, the reset when new initial data arrives, the one validation rule
    (a title that is not blank) and the object it submits. */
module TaskForm {
  import opened Common
  import opened Text
  import opened TaskModel

  /** The partial task the form is opened with; `None` is a missing property. */
  datatype InitialData = InitialData(
    id: Option<string>,
    title: Option<string>,
    description: Option<string>,
    priority: Option<Priority>,
    status: Option<Status>)

  /** The four inputs and the error shown under the title input. */
  datatype FormState = FormState(
    title: string,
    description: string,
    priority: Priority,
    status: Status,
    titleError: Option<string>)

  /** The object handed to `onSubmit`; `user` is always empty. */
  datatype Submission = Submission(
    title: string,
    description: string,
    priority: Priority,
    status: Status,
    user: string)

  const TitleRequired := "Title is required"

  /** The inputs taken from the initial data, each falling back to its
      default when the property is missing or empty. */
  function Fields(d: InitialData): (f: FormState)
    ensures Truthy(d.title) ==> f.title == d.title.value
    ensures !Truthy(d.title) ==> f.title == ""
    ensures d.description.Some? ==> f.description == d.description.value
    ensures d.description.None? ==> f.description == ""
    ensures f.priority == if d.priority.Some? then d.priority.value else Medium
    ensures f.status == if d.status.Some? then d.status.value else Pending
    ensures f.titleError == None
  {
    FormState(OrElse(d.title, ""), OrElse(d.description, ""),
              if d.priority.Some? then d.priority.value else Medium,
              if d.status.Some? then d.status.value else Pending,
              None)
  }

  /** The form's state when it first renders. */
  function InitialForm(init: Option<InitialData>): (f: FormState)
    ensures init.None? ==> f == FormState("", "", Medium, Pending, None)
    ensures init.Some? ==> f == Fields(init.value)
  {
    if init.Some? then Fields(init.value) else Fields(InitialData(None, None, None, None, None))
  }

  /** The effect that runs when the initial data changes: with data present
      the inputs are reset from it (the error stays); without, nothing
      happens. */
  function Reset(f: FormState, init: Option<InitialData>): (r: FormState)
    ensures init.None? ==> r == f
    ensures init.Some? ==> r == InitialForm(init).(titleError := f.titleError)
  {
    if init.None? then f
    else
      var g := Fields(init.value);
      g.(titleError := f.titleError)
  }

  /** Validation: the title must contain a non-space character; the error
      is set when it does not and cleared when it does. */
  function Validate(f: FormState): (r: (FormState, bool))
    ensures r.1 <==> exists k :: 0 <= k < |f.title| && !IsSpace(f.title[k])
    ensures r.0 == f.(titleError := if r.1 then None else Some(TitleRequired))
  {
    var ok := Trim(f.title) != "";
    (f.(titleError := if ok then None else Some(TitleRequired)), ok)
  }

  /** Submitting: when validation passes, the inputs are handed on as they
      are (the title is not trimmed) with an empty `user`; otherwise nothing
      is submitted. */
  function Submit(f: FormState): (r: (FormState, Option<Submission>))
    ensures r.1.Some? <==> Validate(f).1
    ensures r.0 == Validate(f).0
    ensures r.1.Some? ==> r.1.value == Submission(f.title, f.description, f.priority, f.status, "")
  {
    var (g, ok) := Validate(f);
    (g, if ok then Some(Submission(f.title, f.description, f.priority, f.status, "")) else None)
  }

  /** The submit button reads "Update Task" exactly when the initial data
      carries a non-empty id. */
  function SubmitLabel(init: Option<InitialData>): (caption: string)
    ensures caption == "Update Task" <==> init.Some? && Truthy(init.value.id)
    ensures caption != "Update Task" ==> caption == "Create Task"
  {
    if init.Some? && Truthy(init.value.id) then "Update Task" else "Create Task"
  }

  /** The partial task the edit dialog opens the form with. */
  function DataOf(t: Task): InitialData {
    InitialData(Some(t.id), Some(t.title), Some(t.description), Some(t.priority), Some(t.status))
  }

  /** The patch a submission is spread as. */
  function AsPatch(s: Submission): (p: TaskPatch)
    ensures p.title == Some(s.title) && p.description == Some(s.description)
    ensures p.priority == Some(s.priority) && p.status == Some(s.status)
    ensures p.owner == Some(s.user)
  {
    TaskPatch(Some(s.title), Some(s.description), Some(s.priority), Some(s.status), Some(s.user))
  }

  /** Opening the form on a task and submitting it unchanged sends back the
      task's own values (its owner cleared), so long as its title is not
      blank; and the button offers an update when the task has an id. */
  lemma EditUnchangedRoundTrip(t: Task)
    requires exists k :: 0 <= k < |t.title| && !IsSpace(t.title[k])
    ensures Submit(InitialForm(Some(DataOf(t)))).1 == Some(Submission(t.title, t.description, t.priority, t.status, ""))
    ensures t.id != "" ==> SubmitLabel(Some(DataOf(t))) == "Update Task"
  {
    var k :| 0 <= k < |t.title| && !IsSpace(t.title[k]);
    assert t.title != "";
  }

  /** Spreading the unchanged submission over the task changes only its owner. */
  lemma EditUnchangedPatch(t: Task)
    requires exists k :: 0 <= k < |t.title| && !IsSpace(t.title[k])
    ensures ApplyPatch(t, AsPatch(Submit(InitialForm(Some(DataOf(t)))).1.value)) == t.(owner := "")
  {
    EditUnchangedRoundTrip(t);
  }

  /** A blank title is refused whatever else is filled in, and resetting
      from new initial data does not clear the error. */
  lemma BlankTitleRefused(f: FormState, init: Option<InitialData>)
    requires forall k :: 0 <= k < |f.title| ==> IsSpace(f.title[k])
    ensures Submit(f).1 == None
    ensures Submit(f).0.titleError == Some(TitleRequired)
    ensures Reset(Submit(f).0, init).titleError == Some(TitleRequired)
  {
  }
}

=== FILE: task_item.dfy ===
/** One task card: the status change its checkbox asks for, what the
    checkbox and its label show, the style class and colour its priority
    selects, and the placeholder for a missing description. */
module TaskItem {
  import opened TaskModel

  /** The status the checkbox asks for: the other one. */
  function Toggle(s: Status): (r: Status)
    ensures r != s
  {
    if s == Pending then Completed else Pending
  }

  /** Toggling twice is no change. */
  lemma ToggleInvolution(s: Status)
    ensures Toggle(Toggle(s)) == s
  {
  }

  /** The `(id, status)` pair the card hands to `onStatusChange`. */
  function StatusChangeRequest(t: Task): (r: (string, Status))
    ensures r.0 == t.id
    ensures r.1 == Completed <==> t.status == Pending
  {
    (t.id, Toggle(t.status))
  }

  /** How the card shows its status: whether the checkbox is ticked,
      whether the title carries the struck-through style, and the caption
      beside the checkbox. */
  datatype StatusDisplay = StatusDisplay(checked: bool, struck: bool, caption: string)

  /** The checkbox is ticked, the title struck through and the label reads
      "Completed" exactly for a completed task. */
  function StatusView(s: Status): (v: StatusDisplay)
    ensures v.checked <==> s == Completed
    ensures v.struck <==> s == Completed
    ensures v.caption == "Completed" <==> s == Completed
    ensures s == Pending ==> v.caption == "Mark as completed"
  {
    var done := s == Completed;
    StatusDisplay(done, done, if done then "Completed" else "Mark as completed")
  }

  /** Clicking the checkbox asks for the status whose view flips every
      part of the current one. */
  lemma ToggleFlipsView(t: Task)
    ensures StatusView(StatusChangeRequest(t).1).checked != StatusView(t.status).checked
    ensures StatusView(StatusChangeRequest(t).1).struck != StatusView(t.status).struck
    ensures StatusView(StatusChangeRequest(t).1).caption != StatusView(t.status).caption
  {
  }

  /** `c.toUpperCase()` on the characters priority names are made of. */
  function Upper(c: char): (u: char)
    ensures 'a' <= c <= 'z' ==> 'A' <= u <= 'Z' && u as int == c as int - 32
    ensures !('a' <= c <= 'z') ==> u == c
  {
    if 'a' <= c <= 'z' then (c as int - 32) as char else c
  }

  /** `s.charAt(0).toUpperCase() + s.slice(1)`. */
  function Capitalize(s: string): (r: string)
    ensures |r| == |s|
    ensures s != [] ==> r[0] == Upper(s[0]) && r[1..] == s[1..]
  {
    if s == [] then [] else [Upper(s[0])] + s[1..]
  }

  /** The key the card looks up in its style module for its priority:
      "priority" followed by the capitalised priority name. The element's
      class is the style module's entry under that key. */
  function PriorityClass(p: Priority): (c: string)
    ensures |c| == 8 + |PriorityName(p)|
    ensures c[..8] == "priority"
    ensures c[8] == Upper(PriorityName(p)[0]) && c[9..] == PriorityName(p)[1..]
  {
    "priority" + Capitalize(PriorityName(p))
  }

  /** The three priorities select the three keys the style module defines,
      and no two priorities share one. */
  lemma PriorityClasses(p: Priority, q: Priority)
    ensures PriorityClass(Low) == "priorityLow"
    ensures PriorityClass(Medium) == "priorityMedium"
    ensures PriorityClass(High) == "priorityHigh"
    ensures p != q ==> PriorityClass(p) != PriorityClass(q)
  {
    assert PriorityClass(Low)[8] == 'L';
    assert PriorityClass(Medium)[8] == 'M';
    assert PriorityClass(High)[8] == 'H';
  }

  /** The colour of the priority badge, a CSS variable named after the
      priority; the badge background is the same colour with alpha "20". */
  function PriorityColor(p: Priority): (c: string)
    ensures c == "var(--priority-" + PriorityName(p) + ")"
  {
    match p
    case Low => "var(--priority-low)"
    case Medium => "var(--priority-medium)"
    case High => "var(--priority-high)"
  }

  /** What the description area shows. */
  datatype DescriptionArea = Shown(text: string) | Placeholder

  const PlaceholderText := "No description"

  /** `description || <placeholder>`: an empty description shows the
      placeholder, any other is shown as it is. */
  function DescriptionView(d: string): (v: DescriptionArea)
    ensures v.Placeholder? <==> d == ""
    ensures v.Shown? ==> v.text == d
  {
    if d == "" then Placeholder else Shown(d)
  }
}

=== FILE: task_list.dfy ===
/** The task list view: the status and priority filters and the sort order
    the user picks, applied in the browser to the tasks the page holds, and
    the status change the completion checkbox asks for. */
module TaskList {
  import opened Common
  import opened TaskModel
  import opened Sorting

  /** The status select: "all" or one status. */
  datatype StatusFilter = AnyStatus | OnlyStatus(status: Status)

  /** The priority select: "all" or one priority. */
  datatype PriorityFilter = AnyPriority | OnlyPriority(priority: Priority)

  datatype ListState = ListState(status: StatusFilter, priority: PriorityFilter, order: Order)

  /** The selects start at "all", "all" and "createdAt_desc". */
  const InitialState := ListState(AnyStatus, AnyPriority, NewestFirst)

  function StatusPasses(f: StatusFilter): Task -> bool {
    (t: Task) => f.AnyStatus? || t.status == f.status
  }

  function PriorityPasses(f: PriorityFilter): Task -> bool {
    (t: Task) => f.AnyPriority? || t.priority == f.priority
  }

  /** Whether a task survives both selects. */
  predicate Shows(st: ListState, t: Task) {
    StatusPasses(st.status)(t) && PriorityPasses(st.priority)(t)
  }

  /** The tasks that survive both filters, in the order they are held. */
  function Kept(tasks: seq<Task>, st: ListState): (r: seq<Task>)
    ensures forall t :: t in r <==> t in tasks && Shows(st, t)
    ensures forall t :: multiset(r)[t] == if Shows(st, t) then multiset(tasks)[t] else 0
  {
    var byStatus := Filter(tasks, StatusPasses(st.status));
    FilterMultiset(tasks, StatusPasses(st.status));
    FilterMultiset(byStatus, PriorityPasses(st.priority));
    Filter(byStatus, PriorityPasses(st.priority))
  }

  /** What the list shows: the kept tasks, stably sorted by the chosen order
      (tasks whose sort keys tie keep the order they are held in). */
  function VisibleTasks(tasks: seq<Task>, st: ListState): (r: seq<Task>)
    ensures forall t :: t in r <==> t in tasks && Shows(st, t)
    ensures forall t :: multiset(r)[t] == if Shows(st, t) then multiset(tasks)[t] else 0
    ensures Sorted(st.order, r)
    ensures forall k :: WithKey(st.order, r, k) == WithKey(st.order, Kept(tasks, st), k)
  {
    var kept := Kept(tasks, st);
    var r := SortBy(st.order, kept);
    assert forall t :: t in r <==> t in multiset(r);
    assert forall t :: t in kept <==> t in multiset(kept);
    r
  }

  /** What each order means for the fields of the tasks shown. */
  lemma VisibleOrder(tasks: seq<Task>, st: ListState)
    ensures var r := VisibleTasks(tasks, st);
      && (st.order == NewestFirst ==> forall i, j :: 0 <= i < j < |r| ==> r[i].createdAt >= r[j].createdAt)
      && (st.order == OldestFirst ==> forall i, j :: 0 <= i < j < |r| ==> r[i].createdAt <= r[j].createdAt)
      && (st.order == HighestPriorityFirst ==> forall i, j :: 0 <= i < j < |r| ==> Rank(r[i].priority) <= Rank(r[j].priority))
      && (st.order == LowestPriorityFirst ==> forall i, j :: 0 <= i < j < |r| ==> Rank(r[i].priority) >= Rank(r[j].priority))
  {
    var r := VisibleTasks(tasks, st);
    assert forall i, j :: 0 <= i < j < |r| ==> Key(st.order, r[i]) <= Key(st.order, r[j]);
  }

  /** With the initial selects the list shows every task, newest first. */
  lemma InitialShowsEverything(tasks: seq<Task>)
    ensures VisibleTasks(tasks, InitialState) == SortBy(NewestFirst, tasks)
  {
    assert Filter(tasks, StatusPasses(AnyStatus)) == tasks;
    assert Filter(tasks, PriorityPasses(AnyPriority)) == tasks;
  }

  /** Applying the view to what it already shows changes nothing. */
  lemma VisibleTasksIdempotent(tasks: seq<Task>, st: ListState)
    ensures VisibleTasks(VisibleTasks(tasks, st), st) == VisibleTasks(tasks, st)
  {
    var v := VisibleTasks(tasks, st);
    var byStatus := Filter(v, StatusPasses(st.status));
    assert forall i :: 0 <= i < |v| ==> v[i] in v && Shows(st, v[i]);
    assert byStatus == v;
    assert Filter(byStatus, PriorityPasses(st.priority)) == v;
    SortSorted(st.order, v);
  }

  /** The patch the completion checkbox sends: only the status. */
  function StatusChangePatch(s: Status): (p: TaskPatch)
    ensures p.status == Some(s)
    ensures p.(status := None) == EmptyPatch
  {
    EmptyPatch.(status := Some(s))
  }

  /** Applying a status change sets the status and nothing else. */
  lemma StatusChangeOnlyStatus(t: Task, s: Status)
    ensures ApplyPatch(t, StatusChangePatch(s)) == t.(status := s)
  {
  }
}

=== FILE: task_model.dfy ===
/** The task record shared by the server and the client (the `Task` type and
    the `TaskSchema` document schema): the two enumerations, their wire
    names, the priority rank both sorts use, and the schema's field
    constraints, defaults and trimming. Timestamps are integers. */
module TaskModel {
  import opened Common
  import opened Text

  datatype Priority = Low | Medium | High
  datatype Status = Pending | Completed

  /** A task. `owner` is the record's `user` reference (the owner's id). */
  datatype Task = Task(
    id: string,
    title: string,
    description: string,
    priority: Priority,
    status: Status,
    owner: string,
    createdAt: int,
    updatedAt: int)

  function PriorityName(p: Priority): string {
    match p
    case Low => "low"
    case Medium => "medium"
    case High => "high"
  }

  function StatusName(s: Status): string {
    match s
    case Pending => "pending"
    case Completed => "completed"
  }

  /** Membership in the schema's priority enumeration. */
  function ParsePriority(s: string): (r: Option<Priority>)
    ensures r.Some? <==> s == "low" || s == "medium" || s == "high"
    ensures r.Some? ==> PriorityName(r.value) == s
  {
    if s == "low" then Some(Low)
    else if s == "medium" then Some(Medium)
    else if s == "high" then Some(High)
    else None
  }

  /** Membership in the schema's status enumeration. */
  function ParseStatus(s: string): (r: Option<Status>)
    ensures r.Some? <==> s == "pending" || s == "completed"
    ensures r.Some? ==> StatusName(r.value) == s
  {
    if s == "pending" then Some(Pending)
    else if s == "completed" then Some(Completed)
    else None
  }

  /** Every priority's wire name parses back to it. */
  lemma PriorityNameRoundTrip(p: Priority)
    ensures ParsePriority(PriorityName(p)) == Some(p)
  {
  }

  /** Every status's wire name parses back to it. */
  lemma StatusNameRoundTrip(s: Status)
    ensures ParseStatus(StatusName(s)) == Some(s)
  {
  }

  /** The explicit severity order both priority sorts use: high=0, medium=1, low=2. */
  function Rank(p: Priority): (r: nat)
    ensures r <= 2
  {
    match p
    case High => 0
    case Medium => 1
    case Low => 2
  }

  /** The rank is a total order on priorities: it separates them all, with
      high before medium before low. The alphabetical order of the wire names
      ("high", "low", "medium") is a different order, which is why the store
      cannot sort by priority itself. */
  lemma RankIsSeverityOrder(p: Priority, q: Priority)
    ensures Rank(p) == Rank(q) <==> p == q
    ensures Rank(High) < Rank(Medium) < Rank(Low)
  {
  }

  const TitleMaxLength := 100
  const DescriptionMaxLength := 1000
  const DefaultPriority := Medium
  const DefaultStatus := Pending

  /** The values handed to the schema when a task document is created; a
      missing value is `None`. */
  datatype TaskDraft = TaskDraft(
    title: Option<string>,
    description: Option<string>,
    priority: Option<string>,
    status: Option<string>,
    owner: Option<string>)

  /** One failed field constraint: the field's path and its message. */
  datatype FieldError = FieldError(path: string, message: string)

  /** What the schema promises of every stored task. */
  predicate WellFormed(t: Task) {
    && t.title != ""
    && Trim(t.title) == t.title
    && Utf16Length(t.title) <= TitleMaxLength
    && Trim(t.description) == t.description
    && Utf16Length(t.description) <= DescriptionMaxLength
  }

  function TitleErrors(title: Option<string>): (errs: seq<FieldError>)
    ensures errs == [] <==> title.Some? && Trim(title.value) != "" && Utf16Length(Trim(title.value)) <= TitleMaxLength
  {
    if title.None? || Trim(title.value) == "" then
      [FieldError("title", "Please provide a title")]
    else if Utf16Length(Trim(title.value)) > TitleMaxLength then
      [FieldError("title", "Title cannot be more than 100 characters")]
    else
      []
  }

  function DescriptionErrors(description: Option<string>): (errs: seq<FieldError>)
    ensures errs == [] <==> description.None? || Utf16Length(Trim(description.value)) <= DescriptionMaxLength
  {
    if description.Some? && Utf16Length(Trim(description.value)) > DescriptionMaxLength then
      [FieldError("description", "Description cannot be more than 1000 characters")]
    else
      []
  }

  function PriorityErrors(priority: Option<string>): (errs: seq<FieldError>)
    ensures errs == [] <==> priority.None? || ParsePriority(priority.value).Some?
  {
    if priority.Some? && ParsePriority(priority.value).None? then
      [FieldError("priority", priority.value + " is not supported as priority")]
    else
      []
  }

  function StatusErrors(status: Option<string>): (errs: seq<FieldError>)
    ensures errs == [] <==> status.None? || ParseStatus(status.value).Some?
  {
    if status.Some? && ParseStatus(status.value).None? then
      [FieldError("status", status.value + " is not supported as status")]
    else
      []
  }

  function OwnerErrors(owner: Option<string>): (errs: seq<FieldError>)
    ensures errs == [] <==> owner.Some?
  {
    if owner.None? then [FieldError("user", "Please provide a user")] else []
  }

  /** Every failed constraint of a draft, in the schema's field order. */
  function SchemaErrors(d: TaskDraft): seq<FieldError> {
    TitleErrors(d.title) + DescriptionErrors(d.description) + PriorityErrors(d.priority)
      + StatusErrors(d.status) + OwnerErrors(d.owner)
  }

  /** The "path: message" list of a validation failure. */
  function ErrorList(errs: seq<FieldError>): string {
    if errs == [] then ""
    else if |errs| == 1 then errs[0].path + ": " + errs[0].message
    else errs[0].path + ": " + errs[0].message + ", " + ErrorList(errs[1..])
  }

  /** The message of the document-validation error the store raises. */
  function ValidationMessage(errs: seq<FieldError>): string {
    "Task validation failed: " + ErrorList(errs)
  }

  /** Creating a task document: the schema trims title and description,
      fills in the default priority and status, stamps both timestamps, and
      rejects the draft when any field constraint fails. */
  function ValidateDraft(d: TaskDraft, id: string, now: int): (r: Result<Task>)
    ensures r.Ok? <==> SchemaErrors(d) == []
    ensures r.Err? ==> r.error == ValidationMessage(SchemaErrors(d))
    ensures r.Ok? ==> WellFormed(r.value)
    ensures r.Ok? ==> && d.title.Some? && d.owner.Some?
                      && (d.priority.Some? ==> ParsePriority(d.priority.value).Some?)
                      && (d.status.Some? ==> ParseStatus(d.status.value).Some?)
    ensures r.Ok? ==> && r.value.title == Trim(d.title.value)
                      && r.value.description == (if d.description.Some? then Trim(d.description.value) else "")
                      && r.value.priority == (if d.priority.Some? then ParsePriority(d.priority.value).value else DefaultPriority)
                      && r.value.status == (if d.status.Some? then ParseStatus(d.status.value).value else DefaultStatus)
                      && r.value.owner == d.owner.value
                      && r.value.id == id
                      && r.value.createdAt == now && r.value.updatedAt == now
  {
    NoSchemaErrors(d);
    if || TitleErrors(d.title) != [] || DescriptionErrors(d.description) != []
       || PriorityErrors(d.priority) != [] || StatusErrors(d.status) != []
       || OwnerErrors(d.owner) != []
    then
      Err(ValidationMessage(SchemaErrors(d)))
    else
      var t := Task(
        id,
        Trim(d.title.value),
        if d.description.Some? then Trim(d.description.value) else "",
        if d.priority.Some? then ParsePriority(d.priority.value).value else DefaultPriority,
        if d.status.Some? then ParseStatus(d.status.value).value else DefaultStatus,
        d.owner.value, now, now);
      StoredFieldsWellFormed(d, t);
      Ok(t)
  }

  lemma NoSchemaErrors(d: TaskDraft)
    ensures SchemaErrors(d) == [] <==>
      && TitleErrors(d.title) == [] && DescriptionErrors(d.description) == []
      && PriorityErrors(d.priority) == [] && StatusErrors(d.status) == []
      && OwnerErrors(d.owner) == []
  {
  }

  lemma StoredFieldsWellFormed(d: TaskDraft, t: Task)
    requires TitleErrors(d.title) == [] && DescriptionErrors(d.description) == []
    requires t.title == Trim(d.title.value)
    requires t.description == if d.description.Some? then Trim(d.description.value) else ""
    ensures WellFormed(t)
  {
    TrimIdempotent(d.title.value);
    if d.description.Some? {
      TrimIdempotent(d.description.value);
    } else {
      assert Trim("") == "";
    }
  }

  /** The draft that stores exactly the given task's fields. */
  function DraftOf(t: Task): TaskDraft {
    TaskDraft(Some(t.title), Some(t.description), Some(PriorityName(t.priority)),
              Some(StatusName(t.status)), Some(t.owner))
  }

  /** Validation is a fixpoint on stored tasks: re-submitting the fields of
      a well-formed task stores the same task again. */
  lemma RevalidateWellFormed(t: Task)
    requires WellFormed(t)
    requires t.createdAt == t.updatedAt
    ensures ValidateDraft(DraftOf(t), t.id, t.createdAt) == Ok(t)
  {
    PriorityNameRoundTrip(t.priority);
    StatusNameRoundTrip(t.status);
  }

  /** A client-side partial task (`Partial<Task>` as the pages pass it
      around): `None` is a property that is not set. */
  datatype TaskPatch = TaskPatch(
    title: Option<string>,
    description: Option<string>,
    priority: Option<Priority>,
    status: Option<Status>,
    owner: Option<string>)

  const EmptyPatch := TaskPatch(None, None, None, None, None)

  /** `{...t, ...patch}`: every property the patch sets replaces the task's,
      and every other property is kept. */
  function ApplyPatch(t: Task, p: TaskPatch): (r: Task)
    ensures r.id == t.id && r.createdAt == t.createdAt && r.updatedAt == t.updatedAt
    ensures r.title == (if p.title.Some? then p.title.value else t.title)
    ensures r.description == (if p.description.Some? then p.description.value else t.description)
    ensures r.priority == (if p.priority.Some? then p.priority.value else t.priority)
    ensures r.status == (if p.status.Some? then p.status.value else t.status)
    ensures r.owner == (if p.owner.Some? then p.owner.value else t.owner)
  {
    t.(title := if p.title.Some? then p.title.value else t.title,
       description := if p.description.Some? then p.description.value else t.description,
       priority := if p.priority.Some? then p.priority.value else t.priority,
       status := if p.status.Some? then p.status.value else t.status,
       owner := if p.owner.Some? then p.owner.value else t.owner)
  }

  /** Spreading an empty patch changes nothing, and spreading the same patch
      twice is spreading it once. */
  lemma ApplyPatchLaws(t: Task, p: TaskPatch)
    ensures ApplyPatch(t, EmptyPatch) == t
    ensures ApplyPatch(ApplyPatch(t, p), p) == ApplyPatch(t, p)
  {
  }
}

=== FILE: tasks_route.dfy ===
/** The task collection endpoint: `GET /api/tasks` lists the caller's tasks,
    filtered and sorted by the query parameters, and `POST /api/tasks`
    creates one for the caller. The task collection is a sequence in
    insertion order; the caller's id comes from the bearer token. */
module TasksRoute {
  import opened Common
  import opened Text
  import opened TaskModel
  import opened Sorting
  import opened Auth
  import opened ApiMiddleware

  /** The three query parameters; `None` is a parameter that is absent. */
  datatype ListParams = ListParams(status: Option<string>, priority: Option<string>, sortBy: Option<string>)

  /** The store query: the owner, and the exact status and priority values
      asked for, if any. */
  datatype Query = Query(owner: string, status: Option<string>, priority: Option<string>)

  /** A filter value that constrains the listing: present, non-empty and not "all". */
  function Constraint(value: Option<string>): (r: Option<string>)
    ensures r.Some? <==> Truthy(value) && value.value != "all"
    ensures r.Some? ==> r == value
  {
    if Truthy(value) && value.value != "all" then value else None
  }

  /** The query `getTasks` builds: the owner always, each filter only when
      it constrains. */
  function BuildQuery(userId: string, params: ListParams): (q: Query)
    ensures q.owner == userId
    ensures q.status == Constraint(params.status)
    ensures q.priority == Constraint(params.priority)
  {
    Query(userId, Constraint(params.status), Constraint(params.priority))
  }

  /** A stored task matches a query when every field the query names is
      equal to the task's stored value. */
  predicate Matches(q: Query, t: Task) {
    && t.owner == q.owner
    && (q.status.Some? ==> StatusName(t.status) == q.status.value)
    && (q.priority.Some? ==> PriorityName(t.priority) == q.priority.value)
  }

  const NewestFirstName := "createdAt_desc"
  const OldestFirstName := "createdAt_asc"
  const HighestPriorityName := "priority_high"
  const LowestPriorityName := "priority_low"

  /** The order a listing comes back in: a missing `sortBy` means
      "createdAt_desc", and so does any value that is not one of the
      other three. */
  function ResolveOrder(sortBy: Option<string>): (o: Order)
    ensures o == OldestFirst <==> sortBy == Some(OldestFirstName)
    ensures o == HighestPriorityFirst <==> sortBy == Some(HighestPriorityName)
    ensures o == LowestPriorityFirst <==> sortBy == Some(LowestPriorityName)
  {
    var key := OrElse(sortBy, NewestFirstName);
    if key == OldestFirstName then OldestFirst
    else if key == HighestPriorityName then HighestPriorityFirst
    else if key == LowestPriorityName then LowestPriorityFirst
    else NewestFirst
  }

  /** The tasks of the store that match the query, in store order. */
  function Matching(store: seq<Task>, q: Query): (r: seq<Task>)
    ensures forall t :: t in r <==> t in store && Matches(q, t)
    ensures forall t :: t in r ==> t.owner == q.owner
  {
    Filter(store, t => Matches(q, t))
  }

  /** `Task.find(query).sort(sort)`: the matching tasks in store order,
      sorted by creation time unless a priority order was asked for, in
      which case the store applies no sort. */
  function Fetch(store: seq<Task>, q: Query, sortBy: Option<string>): seq<Task> {
    match ResolveOrder(sortBy)
    case OldestFirst => SortBy(OldestFirst, Matching(store, q))
    case NewestFirst => SortBy(NewestFirst, Matching(store, q))
    case _ => Matching(store, q)
  }

  /** The listing `getTasks` returns for the caller `userId`: the fetched
      tasks, re-sorted in memory by rank for the two priority orders. */
  function ListTasks(store: seq<Task>, userId: string, params: ListParams): (r: seq<Task>)
    ensures forall t :: t in r ==> t.owner == userId
    ensures forall t :: t in r <==> t in store && Matches(BuildQuery(userId, params), t)
    ensures multiset(r) == multiset(Matching(store, BuildQuery(userId, params)))
    ensures Sorted(ResolveOrder(params.sortBy), r)
  {
    var q := BuildQuery(userId, params);
    var fetched := Fetch(store, q, params.sortBy);
    var r := match ResolveOrder(params.sortBy)
      case HighestPriorityFirst => SortBy(HighestPriorityFirst, fetched)
      case LowestPriorityFirst => SortBy(LowestPriorityFirst, fetched)
      case _ => fetched;
    assert r == SortBy(ResolveOrder(params.sortBy), Matching(store, q));
    SortedMatching(store, q, ResolveOrder(params.sortBy));
    r
  }

  /** Sorting the matching tasks keeps exactly the matching tasks. */
  lemma SortedMatching(store: seq<Task>, q: Query, o: Order)
    ensures forall t :: t in SortBy(o, Matching(store, q)) <==> t in store && Matches(q, t)
  {
    var m := Matching(store, q);
    var r := SortBy(o, m);
    forall t ensures t in r <==> t in m {
      assert t in r <==> t in multiset(r);
      assert t in m <==> t in multiset(m);
    }
  }

  /** `getTasks`: authenticate first; a failure is thrown on with its
      message, otherwise the listing goes out with status 200. */
  function GetTasks(svc: TokenService, header: Option<string>, params: ListParams, store: seq<Task>): (r: Outcome<seq<Task>>)
    ensures Authenticate(svc, header).Err? ==> r == Threw(Authenticate(svc, header).error)
    ensures Authenticate(svc, header).Ok? ==>
              r == Returned(Response(200, Success(ListTasks(store, Authenticate(svc, header).value.userId, params))))
  {
    match Authenticate(svc, header)
    case Err(message) => Threw(message)
    case Ok(claims) => Returned(SuccessResponse(ListTasks(store, claims.userId, params), None))
  }

  /** The request body fields `createTask` reads. */
  datatype CreateBody = CreateBody(title: Option<string>, description: Option<string>,
                                   priority: Option<string>, status: Option<string>)

  /** What a create request answers, and the store after it. */
  datatype Created = Created(outcome: Outcome<Task>, store: seq<Task>)

  const TitleRequiredMessage := "Title is required"

  /** The draft `createTask` hands the schema: empty or missing fields fall
      back to "", "medium" and "pending", and the owner is the caller. */
  function DraftFor(body: CreateBody, userId: string): (d: TaskDraft)
    ensures d.title == body.title && d.owner == Some(userId)
    ensures d.description == Some(if Truthy(body.description) then body.description.value else "")
    ensures d.priority == Some(if Truthy(body.priority) then body.priority.value else "medium")
    ensures d.status == Some(if Truthy(body.status) then body.status.value else "pending")
  {
    TaskDraft(body.title, Some(OrElse(body.description, "")), Some(OrElse(body.priority, "medium")),
              Some(OrElse(body.status, "pending")), Some(userId))
  }

  /** `createTask`: authenticate, then require a truthy title, then create
      the document; `newId` and `now` are the id and time the store assigns. */
  function CreateTask(svc: TokenService, header: Option<string>, body: CreateBody,
                      store: seq<Task>, newId: string, now: int): (r: Created)
    ensures Authenticate(svc, header).Err? ==> r == Created(Threw(Authenticate(svc, header).error), store)
    ensures Authenticate(svc, header).Ok? && !Truthy(body.title) ==>
              r == Created(Threw(TitleRequiredMessage), store)
    ensures r.outcome.Threw? ==> r.store == store
    ensures r.outcome.Returned? ==>
              && Authenticate(svc, header).Ok? && Truthy(body.title)
              && r.outcome.response.status == 201 && r.outcome.response.body.Success?
              && r.store == store + [r.outcome.response.body.data]
    ensures r.outcome.Returned? ==>
              ValidateDraft(DraftFor(body, Authenticate(svc, header).value.userId), newId, now)
                == Ok(r.outcome.response.body.data)
    ensures Authenticate(svc, header).Ok? && Truthy(body.title) ==>
              var v := ValidateDraft(DraftFor(body, Authenticate(svc, header).value.userId), newId, now);
              && (v.Err? ==> r == Created(Threw(v.error), store))
              && (v.Ok? ==> r == Created(Returned(Response(201, Success(v.value))), store + [v.value]))
  {
    match Authenticate(svc, header)
    case Err(message) => Created(Threw(message), store)
    case Ok(claims) =>
      if !Truthy(body.title) then Created(Threw(TitleRequiredMessage), store)
      else
        match ValidateDraft(DraftFor(body, claims.userId), newId, now)
        case Err(message) => Created(Threw(message), store)
        case Ok(t) => Created(Returned(SuccessResponse(t, Some(201))), store + [t])
  }

  /** The task a successful create stores: owned by the caller, with the
      schema's guarantees, the trimmed title and description, and the
      defaults for every empty or missing field. */
  lemma CreatedTaskFields(body: CreateBody, userId: string, newId: string, now: int, t: Task)
    requires ValidateDraft(DraftFor(body, userId), newId, now) == Ok(t)
    ensures t.owner == userId && t.id == newId && t.createdAt == now && t.updatedAt == now
    ensures WellFormed(t)
    ensures Truthy(body.title) && t.title == Trim(body.title.value)
    ensures t.description == if Truthy(body.description) then Trim(body.description.value) else ""
    ensures t.priority == if Truthy(body.priority) then ParsePriority(body.priority.value).value else Medium
    ensures t.status == if Truthy(body.status) then ParseStatus(body.status.value).value else Pending
  {
    var d := DraftFor(body, userId);
    if !Truthy(body.description) {
      assert Trim("") == "";
    }
  }

  /** The exported `GET`: only the GET method is registered. */
  function GetRoute(svc: TokenService, verb: string, header: Option<string>,
                    params: ListParams, store: seq<Task>): (r: Response<seq<Task>>)
    ensures verb != "GET" ==> r.status == 405
    ensures verb == "GET" && !Truthy(TokenFromHeader(header)) ==> r == Response(401, Failure(RequiredMessage))
    ensures verb == "GET" && Truthy(TokenFromHeader(header))
              && svc.jwt.verify(TokenFromHeader(header).value, svc.secret).None? ==>
              r == Response(500, Failure(InvalidTokenMessage))
    ensures verb == "GET" && Authenticate(svc, header).Ok? ==>
              r == Response(200, Success(ListTasks(store, Authenticate(svc, header).value.userId, params)))
  {
    var outcome := GetTasks(svc, header, params, store);
    if verb == "GET" && outcome.Threw? then
      RequiredIsUnauthorized();
      InvalidTokenIsServerError();
      GetFailures(svc, header, params, store);
      MethodHandler({"GET"}, verb, outcome)
    else
      GetFailures(svc, header, params, store);
      MethodHandler({"GET"}, verb, outcome)
  }

  /** The two authentication failures a listing can throw. */
  lemma GetFailures(svc: TokenService, header: Option<string>, params: ListParams, store: seq<Task>)
    ensures !Truthy(TokenFromHeader(header)) ==> GetTasks(svc, header, params, store) == Threw(RequiredMessage)
    ensures Truthy(TokenFromHeader(header)) && svc.jwt.verify(TokenFromHeader(header).value, svc.secret).None? ==>
              GetTasks(svc, header, params, store) == Threw(InvalidTokenMessage)
  {
  }

  /** The exported `POST`: only the POST method is registered. A created
      task answers 201 with the task; a missing token 401, a bad one or a
      missing title 500. A schema failure is classified by its message:
      usually 500, but a rejected enumeration value is repeated in the
      message and can match a rule. */
  function PostRoute(svc: TokenService, verb: string, header: Option<string>, body: CreateBody,
                     store: seq<Task>, newId: string, now: int): (r: Response<Task>)
    ensures verb != "POST" ==> r.status == 405
    ensures verb == "POST" && !Truthy(TokenFromHeader(header)) ==> r == Response(401, Failure(RequiredMessage))
    ensures verb == "POST" && Truthy(TokenFromHeader(header))
              && svc.jwt.verify(TokenFromHeader(header).value, svc.secret).None? ==>
              r == Response(500, Failure(InvalidTokenMessage))
    ensures verb == "POST" && Authenticate(svc, header).Ok? && !Truthy(body.title) ==>
              r == Response(500, Failure(TitleRequiredMessage))
    ensures verb == "POST" && CreateTask(svc, header, body, store, newId, now).outcome.Returned? ==>
              r == CreateTask(svc, header, body, store, newId, now).outcome.response
    ensures verb == "POST" && CreateTask(svc, header, body, store, newId, now).outcome.Threw? ==>
              var message := CreateTask(svc, header, body, store, newId, now).outcome.message;
              r == Response(MethodStatus(message), Failure(message))
  {
    var outcome := CreateTask(svc, header, body, store, newId, now).outcome;
    CreateFailures(svc, header, body, store, newId, now);
    if verb == "POST" && outcome.Threw? then
      MissingTitleIsServerError();
      RequiredIsUnauthorized();
      InvalidTokenIsServerError();
      MethodHandler({"POST"}, verb, outcome)
    else
      MethodHandler({"POST"}, verb, outcome)
  }

  /** The three failures a create throws before the schema runs. */
  lemma CreateFailures(svc: TokenService, header: Option<string>, body: CreateBody,
                       store: seq<Task>, newId: string, now: int)
    ensures !Truthy(TokenFromHeader(header)) ==>
              CreateTask(svc, header, body, store, newId, now).outcome == Threw(RequiredMessage)
    ensures Truthy(TokenFromHeader(header)) && svc.jwt.verify(TokenFromHeader(header).value, svc.secret).None? ==>
              CreateTask(svc, header, body, store, newId, now).outcome == Threw(InvalidTokenMessage)
    ensures Authenticate(svc, header).Ok? && !Truthy(body.title) ==>
              CreateTask(svc, header, body, store, newId, now).outcome == Threw(TitleRequiredMessage)
  {
  }

  /** A rejected priority is repeated in the validation message, so a
      value that contains a rule's needle picks that rule's status: a
      priority of "already exists" answers 409, not 500. */
  lemma EchoedPriorityIsClassified(svc: TokenService, header: Option<string>, store: seq<Task>,
                                   newId: string, now: int)
    requires Authenticate(svc, header).Ok?
    ensures PostRoute(svc, "POST", header, EchoedPriorityBody, store, newId, now).status == 409
  {
    EchoedPriorityThrows(svc, header, store, newId, now);
    EchoedPriorityMessage();
  }

  /** Creating that body throws the validation message of the one
      priority error. */
  lemma EchoedPriorityThrows(svc: TokenService, header: Option<string>, store: seq<Task>,
                             newId: string, now: int)
    requires Authenticate(svc, header).Ok?
    ensures CreateTask(svc, header, EchoedPriorityBody, store, newId, now).outcome
              == Threw(ValidationMessage([EchoedPriorityError]))
  {
    var d := DraftFor(EchoedPriorityBody, Authenticate(svc, header).value.userId);
    EchoedPriorityErrors(Authenticate(svc, header).value.userId);
    assert CreateTask(svc, header, EchoedPriorityBody, store, newId, now).outcome
           == Threw(ValidationMessage(SchemaErrors(d)));
  }

  const EchoedPriorityBody := CreateBody(Some("x"), None, Some("already exists"), None)
  const EchoedPriorityError := FieldError("priority", "already exists" + " is not supported as priority")

  /** The only schema failure of that body is its priority. */
  lemma EchoedPriorityErrors(userId: string)
    ensures SchemaErrors(DraftFor(EchoedPriorityBody, userId)) == [EchoedPriorityError]
  {
    var d := DraftFor(EchoedPriorityBody, userId);
    EchoedOtherFieldsPass(userId);
    OnlyPriorityFails(d);
    EchoedPriorityRejected();
    calc {
      SchemaErrors(d);
      PriorityErrors(d.priority);
      PriorityErrors(Some("already exists"));
      [EchoedPriorityError];
    }
  }

  lemma OnlyPriorityFails(d: TaskDraft)
    requires TitleErrors(d.title) == [] && DescriptionErrors(d.description) == []
    requires StatusErrors(d.status) == [] && OwnerErrors(d.owner) == []
    ensures SchemaErrors(d) == PriorityErrors(d.priority)
  {
    assert SchemaErrors(d) == [] + [] + PriorityErrors(d.priority) + [] + [];
  }

  /** Every other field of that body passes. */
  lemma EchoedOtherFieldsPass(userId: string)
    ensures var d := DraftFor(EchoedPriorityBody, userId);
      && TitleErrors(d.title) == [] && DescriptionErrors(d.description) == []
      && StatusErrors(d.status) == [] && OwnerErrors(d.owner) == []
      && d.priority == Some("already exists")
  {
    var d := DraftFor(EchoedPriorityBody, userId);
    assert d.title == Some("x") && d.description == Some("") && d.status == Some("pending");
    assert Trim("x") == "x" by {
      assert !IsSpace('x');
    }
  }

  lemma EchoedPriorityRejected()
    ensures PriorityErrors(Some("already exists")) == [EchoedPriorityError]
  {
    var v := "already exists";
    assert |v| == 14;
    assert v != "low" && v != "medium" && v != "high";
    assert ParsePriority(v).None?;
  }

  /** Its validation message contains "already exists". */
  lemma EchoedPriorityMessage()
    ensures MethodStatus(ValidationMessage([EchoedPriorityError])) == 409
  {
    var m := ValidationMessage([EchoedPriorityError]);
    var front := "Task validation failed: " + ("priority" + ": ");
    assert m == front + "already exists" + " is not supported as priority";
    ContainsInfix(front, "already exists", " is not supported as priority");
  }

  lemma ContainsInfix(a: string, b: string, c: string)
    ensures Contains(a + b + c, b)
  {
    var s := a + b + c;
    assert s[|a|..][..|b|] == b;
  }

  /** "all", an empty value and an absent parameter are the same filter. */
  lemma AllIsNoFilter(userId: string, params: ListParams, store: seq<Task>)
    ensures ListTasks(store, userId, params.(status := Some("all"))) ==
            ListTasks(store, userId, params.(status := None))
    ensures ListTasks(store, userId, params.(priority := Some("all"))) ==
            ListTasks(store, userId, params.(priority := None))
    ensures ListTasks(store, userId, params.(status := Some(""))) ==
            ListTasks(store, userId, params.(status := None))
    ensures ListTasks(store, userId, params.(priority := Some(""))) ==
            ListTasks(store, userId, params.(priority := None))
  {
    var none := params.(status := None);
    assert BuildQuery(userId, params.(status := Some("all"))) == BuildQuery(userId, none);
    assert BuildQuery(userId, params.(status := Some(""))) == BuildQuery(userId, none);
    assert BuildQuery(userId, params.(priority := Some("all"))) == BuildQuery(userId, params.(priority := None));
    assert BuildQuery(userId, params.(priority := Some(""))) == BuildQuery(userId, params.(priority := None));
  }

  /** Any `sortBy` other than the three named ones lists newest first,
      exactly as a missing one does. */
  lemma UnknownSortIsNewestFirst(userId: string, params: ListParams, store: seq<Task>)
    requires params.sortBy.Some?
    requires params.sortBy.value !in {OldestFirstName, HighestPriorityName, LowestPriorityName}
    ensures ListTasks(store, userId, params) == ListTasks(store, userId, params.(sortBy := None))
  {
  }

  /** The two priority orders list the same tasks with their ranks in
      exactly opposite orders. */
  lemma PriorityListingsReverse(userId: string, params: ListParams, store: seq<Task>)
    ensures var high := ListTasks(store, userId, params.(sortBy := Some(HighestPriorityName)));
            var low := ListTasks(store, userId, params.(sortBy := Some(LowestPriorityName)));
            && multiset(high) == multiset(low)
            && Ranks(high) == Reverse(Ranks(low))
  {
    var q := BuildQuery(userId, params);
    var matching := Matching(store, q);
    assert BuildQuery(userId, params.(sortBy := Some(HighestPriorityName))) == q;
    assert BuildQuery(userId, params.(sortBy := Some(LowestPriorityName))) == q;
    PriorityOrdersAreReverses(matching);
  }

  /** Among tasks of equal rank a priority listing keeps the store's order. */
  lemma PriorityListingIsStable(userId: string, params: ListParams, store: seq<Task>, k: int)
    requires params.sortBy == Some(HighestPriorityName) || params.sortBy == Some(LowestPriorityName)
    ensures var o := ResolveOrder(params.sortBy);
            WithKey(o, ListTasks(store, userId, params), k) ==
            WithKey(o, Matching(store, BuildQuery(userId, params)), k)
  {
  }

  /** A task created by a caller is in that caller's unfiltered listing
      right afterwards, and in nobody else's. */
  lemma CreatedTaskIsListed(svc: TokenService, header: Option<string>, body: CreateBody,
                            store: seq<Task>, newId: string, now: int, params: ListParams)
    requires CreateTask(svc, header, body, store, newId, now).outcome.Returned?
    requires params.status.None? && params.priority.None?
    ensures var c := CreateTask(svc, header, body, store, newId, now);
            var t := c.outcome.response.body.data;
            && t in ListTasks(c.store, Authenticate(svc, header).value.userId, params)
            && forall other :: other != Authenticate(svc, header).value.userId ==> t !in ListTasks(c.store, other, params)
  {
    var c := CreateTask(svc, header, body, store, newId, now);
    var t := c.outcome.response.body.data;
    var userId := Authenticate(svc, header).value.userId;
    CreatedTaskFields(body, userId, newId, now, t);
    AppendedTaskIsListed(store, t, params);
  }

  /** An appended task is listed for its owner when no filter is set. */
  lemma AppendedTaskIsListed(store: seq<Task>, t: Task, params: ListParams)
    requires params.status.None? && params.priority.None?
    ensures t in ListTasks(store + [t], t.owner, params)
    ensures forall other :: other != t.owner ==> t !in ListTasks(store + [t], other, params)
  {
    assert t in store + [t];
    assert Matches(BuildQuery(t.owner, params), t);
  }
}

=== FILE: text.dfy ===
/** The JavaScript string operations the task manager relies on, written out
    over `seq<char>`: `trim`, `startsWith`, `includes`, `split` on one
    character, `length` (in UTF-16 code units), and the decimal form of a
    number. */
module Text {

  /** The characters `String.prototype.trim` removes: the ECMAScript
      WhiteSpace and LineTerminator code points. */
  predicate IsSpace(c: char) {
    || c == ' ' || c == '\t' || c == '\n' || c == '\r'
    || c == '\U{000B}' || c == '\U{000C}' || c == '\U{00A0}' || c == '\U{1680}'
    || ('\U{2000}' <= c <= '\U{200A}')
    || c == '\U{2028}' || c == '\U{2029}' || c == '\U{202F}' || c == '\U{205F}'
    || c == '\U{3000}' || c == '\U{FEFF}'
  }

  /** Number of leading spaces of `s`. */
  function LeadingSpaces(s: string): (n: nat)
    ensures n <= |s|
    ensures forall i :: 0 <= i < n ==> IsSpace(s[i])
    ensures n < |s| ==> !IsSpace(s[n])
  {
    if s == [] || !IsSpace(s[0]) then 0 else 1 + LeadingSpaces(s[1..])
  }

  /** Number of trailing spaces of `s`. */
  function TrailingSpaces(s: string): (n: nat)
    ensures n <= |s|
    ensures forall i :: |s| - n <= i < |s| ==> IsSpace(s[i])
    ensures n < |s| ==> !IsSpace(s[|s| - n - 1])
  {
    if s == [] || !IsSpace(s[|s| - 1]) then 0 else 1 + TrailingSpaces(s[..|s| - 1])
  }

  /** `s.trim()`: the longest slice of `s` that neither starts nor ends with a space. */
  function Trim(s: string): (r: string)
    ensures |r| <= |s|
    ensures r == [] || (!IsSpace(r[0]) && !IsSpace(r[|r| - 1]))
    ensures exists i :: (0 <= i <= |s| && StartsWith(s[i..], r)
                         && (forall k :: 0 <= k < i ==> IsSpace(s[k]))
                         && (forall k :: i + |r| <= k < |s| ==> IsSpace(s[k])))
    ensures r == [] <==> forall k :: 0 <= k < |s| ==> IsSpace(s[k])
  {
    var front := LeadingSpaces(s);
    var rest := s[front..];
    var back := TrailingSpaces(rest);
    var r := rest[..|rest| - back];
    TrimSlice(s, front, back);
    assert StartsWith(s[front..], r);
    r
  }

  lemma TrimSlice(s: string, front: nat, back: nat)
    requires front == LeadingSpaces(s)
    requires back == TrailingSpaces(s[front..])
    ensures var r := s[front..][..|s| - front - back];
      && r == s[front..front + |r|]
      && (r == [] <==> forall k :: 0 <= k < |s| ==> IsSpace(s[k]))
      && (forall k :: front + |r| <= k < |s| ==> IsSpace(s[k]))
  {
    var rest := s[front..];
    var r := rest[..|rest| - back];
    assert r == s[front..front + |r|];
    forall k | front + |r| <= k < |s| ensures IsSpace(s[k]) {
      assert s[k] == rest[k - front];
    }
    if r != [] {
      assert !IsSpace(rest[0]);
    }
  }

  /** Trimming is idempotent. */
  lemma TrimIdempotent(s: string)
    ensures Trim(Trim(s)) == Trim(s)
  {
    var t := Trim(s);
    if t != [] {
      assert LeadingSpaces(t) == 0;
      assert TrailingSpaces(t) == 0;
    }
  }

  /** `s.startsWith(prefix)`. */
  predicate StartsWith(s: string, prefix: string) {
    |prefix| <= |s| && s[..|prefix|] == prefix
  }

  /** `s.includes(sub)`, computed by trying every start position in turn. */
  function Contains(s: string, sub: string): (b: bool)
    ensures b <==> exists i :: 0 <= i <= |s| && StartsWith(s[i..], sub)
  {
    if StartsWith(s, sub) then
      assert s[0..] == s;
      true
    else if s == [] then
      false
    else
      var b := Contains(s[1..], sub);
      assert forall i :: 1 <= i <= |s| ==> s[i..] == s[1..][i - 1..];
      assert s[0..] == s;
      b
  }

  /** `s.split(sep)` for a one-character separator: the fields between the
      separators, at least one, possibly empty. */
  function Split(s: string, sep: char): (fields: seq<string>)
    ensures |fields| >= 1
    ensures forall i :: 0 <= i < |fields| ==> sep !in fields[i]
    ensures Join(fields, sep) == s
  {
    if s == [] then [""]
    else
      var rest := Split(s[1..], sep);
      if s[0] == sep then
        [""] + rest
      else
        assert Join(rest, sep) == s[1..];
        JoinHead(rest, sep, s[0]);
        [[s[0]] + rest[0]] + rest[1..]
  }

  /** `fields.join(sep)`. */
  function Join(fields: seq<string>, sep: char): string
    requires |fields| >= 1
  {
    if |fields| == 1 then fields[0] else fields[0] + [sep] + Join(fields[1..], sep)
  }

  lemma JoinHead(fields: seq<string>, sep: char, c: char)
    requires |fields| >= 1
    ensures Join([[c] + fields[0]] + fields[1..], sep) == [c] + Join(fields, sep)
  {
    var g := [[c] + fields[0]] + fields[1..];
    assert g[1..] == fields[1..];
  }

  /** Splitting inverts joining: a list of separator-free fields comes back
      unchanged from `join` followed by `split`. */
  lemma {:induction false} SplitJoin(fields: seq<string>, sep: char)
    requires |fields| >= 1
    requires forall i :: 0 <= i < |fields| ==> sep !in fields[i]
    ensures Split(Join(fields, sep), sep) == fields
  {
    if |fields| == 1 {
      SplitWord(fields[0], sep);
    } else {
      SplitJoin(fields[1..], sep);
      SplitAfterWord(fields[0], Join(fields[1..], sep), sep);
      assert [fields[0]] + fields[1..] == fields;
    }
  }

  /** A separator-free word splits into itself. */
  lemma {:induction false} SplitWord(w: string, sep: char)
    requires sep !in w
    ensures Split(w, sep) == [w]
  {
    if w != [] {
      SplitWord(w[1..], sep);
      assert [w[0]] + w[1..] == w;
    }
  }

  /** A separator-free word followed by a separator is the first field, and
      the rest splits on its own. */
  lemma {:induction false} SplitAfterWord(w: string, rest: string, sep: char)
    requires sep !in w
    ensures Split(w + [sep] + rest, sep) == [w] + Split(rest, sep)
  {
    if w == [] {
      assert w + [sep] + rest == [sep] + rest;
      assert ([sep] + rest)[1..] == rest;
    } else {
      var s := w + [sep] + rest;
      assert s[1..] == w[1..] + [sep] + rest;
      SplitAfterWord(w[1..], rest, sep);
      assert [w[0]] + w[1..] == w;
    }
  }

  /** The first field of a split is the longest separator-free prefix. */
  lemma {:induction false} SplitFirst(s: string, sep: char)
    ensures sep !in Split(s, sep)[0]
    ensures StartsWith(s, Split(s, sep)[0])
    ensures |Split(s, sep)[0]| == |s| || s[|Split(s, sep)[0]|] == sep
  {
    if s != [] && s[0] != sep {
      SplitFirst(s[1..], sep);
      assert s == [s[0]] + s[1..];
    }
  }

  /** `s.length`: JavaScript counts UTF-16 code units, so a character
      outside the Basic Multilingual Plane counts twice. */
  function Utf16Length(s: string): (n: nat)
    ensures |s| <= n <= 2 * |s|
    ensures (forall i :: 0 <= i < |s| ==> s[i] as int <= 0xFFFF) ==> n == |s|
    ensures |s| == 1 ==> n == if s[0] as int > 0xFFFF then 2 else 1
  {
    if s == [] then 0
    else (if s[0] as int > 0xFFFF then 2 else 1) + Utf16Length(s[1..])
  }

  /** The length of a concatenation is the sum of the lengths, so every
      character adds its own count of code units. */
  lemma {:induction false} Utf16Append(a: string, b: string)
    ensures Utf16Length(a + b) == Utf16Length(a) + Utf16Length(b)
  {
    if a != [] {
      assert (a + b)[1..] == a[1..] + b;
      Utf16Append(a[1..], b);
    } else {
      assert a + b == b;
    }
  }

  predicate IsDigit(c: char) {
    '0' as int <= c as int <= '9' as int
  }

  /** The decimal form JavaScript gives a non-negative integer. */
  function Decimal(n: nat): (s: string)
    ensures |s| >= 1
    ensures forall i :: 0 <= i < |s| ==> IsDigit(s[i])
    ensures |s| > 1 ==> s[0] != '0'
  {
    if n < 10 then [Digit(n)] else Decimal(n / 10) + [Digit(n % 10)]
  }

  function Digit(d: nat): (c: char)
    requires d < 10
    ensures IsDigit(c) && (c as int) - ('0' as int) == d
  {
    (('0' as int) + d) as char
  }

  /** The value of a string of decimal digits. */
  function ParseDecimal(s: string): nat
    requires forall i :: 0 <= i < |s| ==> IsDigit(s[i])
  {
    if s == [] then 0
    else
      assert IsDigit(s[|s| - 1]);
      10 * ParseDecimal(s[..|s| - 1]) + ((s[|s| - 1] as int) - ('0' as int))
  }

  /** Reading back the decimal form of `n` gives `n`. */
  lemma {:induction false} DecimalRoundTrip(n: nat)
    ensures ParseDecimal(Decimal(n)) == n
  {
    if n >= 10 {
      DecimalRoundTrip(n / 10);
      var s := Decimal(n);
      assert s[..|s| - 1] == Decimal(n / 10);
    }
  }

  /** Different numbers have different decimal forms. */
  lemma DecimalInjective(m: nat, n: nat)
    requires m != n
    ensures Decimal(m) != Decimal(n)
  {
    DecimalRoundTrip(m);
    DecimalRoundTrip(n);
  }
}
